=== FILE: README.md ===
# class-builder, modelled in Dafny

This project models the core of thenlabs/class-builder, a PHP library that builds the source
code of a class, trait or interface from a descriptor object. It covers:

- the `ClassBuilder` descriptor: its name, namespace, parent, interfaces, the final and abstract
  flags, entity type, comment block and ordered member list, together with the setters that
  validate what they store;
- the members it holds: properties, constants, methods and trait uses, with the traits they
  share (comments, access, static, abstract, value);
- the code emitters of the builder and of every member kind;
- the name check `Helpers::validNameForClassMember`;
- `TraitBuilder`.

The model is functional. A builder and a member are immutable records. A setter returns the
updated record. A setter that can raise returns an `Effect`, which pairs the state after the
call with the exception raised, if any. A getter or emitter that can fail returns a `Result`.
PHP strings are byte strings, modelled as `seq<char>` with one char per byte.

Modules, in dependency order:

- `Wrappers`: `Option`, `Result` and `Effect`, plus the exception kinds.
- `Php`: the built-ins the library relies on: truthiness, `implode`, `explode`, and a
  `var_export` parameter.
- `Seqs`: first-match search and filtering.
- `Helpers`: the name regex as a byte-class predicate, and a matcher that scans the name.
- `CommentTrait`, `AccessTrait`, `MemberTraits`: the traits.
- `ClassMember`: `AbstractClassMember` and the four member kinds.
- `Properties`, `Constants`, `Methods`, `TraitUses`: each member kind's `getCode`, and the
  method setters.
- `MemberList`: `get*` and `remove*` over the member list.
- `ClassBuilder`: the descriptor state and its setters.
- `ClassEmitter`: `ClassBuilder::getCode`.
- `TraitBuilder`: the trait builder's constructor.

Two behaviours are modelled as written:

- The name regex has no `D` modifier, so its `$` also matches before one final `"\n"`. A valid
  name followed by a single newline is therefore accepted (`Helpers.TrailingNewlineIsTolerated`).
- The repository's tests expect `addProperty`, `addConstant` and `addMethod` to reject invalid
  names. The code performs no such check, and the model follows the code
  (`ClassBuilder.AddDoesNotValidateNames`).

## Model

| member | source | states |
|---|---|---|
| Helpers.MatchName | src/Helpers.php:11-14 | scanning the name byte by byte (one lead byte, then tail bytes, allowing one final newline) answers true exactly when the name satisfies the regex predicate |
| Helpers.EmptyNameIsInvalid | src/Helpers.php:13 | the empty string is not a valid name |
| Helpers.DigitLedNameIsInvalid | src/Helpers.php:13 | a name whose first byte is a digit (`12Class`, `01`) is rejected |
| Helpers.ForeignByteMakesNameInvalid | src/Helpers.php:13 | a byte outside letters, digits, `_` and 0x7f-0xff, anywhere except as the one tolerated final newline, rejects the name |
| Helpers.SpaceOrDollarMakesNameInvalid | src/Helpers.php:13 | a space or `$` anywhere rejects the name |
| Helpers.PrefixOfValidNameIsValid | src/Helpers.php:13 | every non-empty prefix of a valid name is valid |
| Helpers.AppendTailByteKeepsNameValid | src/Helpers.php:13 | appending a tail byte to a valid name that does not end in a newline keeps it valid |
| Helpers.TrailingNewlineIsTolerated | src/Helpers.php:13 | an identifier followed by one newline is accepted; followed by two newlines, or by a newline and more bytes, it is rejected |
| Helpers.ValidNameHasNoSeparators | src/Helpers.php:13 | a valid name contains neither `\` nor `,`, so namespaces and lists split cleanly around it |
| Php.ImplodeExplode | src/ClassBuilder.php:119 | joining the pieces of `explode` with the delimiter gives back the string |
| Php.ExplodeImplode | src/ClassBuilder.php:119 | exploding a join of delimiter-free pieces gives back the pieces |
| Php.ExplodeAround | src/ClassBuilder.php:119 | exploding `a` + delimiter + `b` is exploding `a` followed by exploding `b` |
| Php.ExplodeCount | src/ClassBuilder.php:119 | `explode` yields one piece more than the string has delimiters |
| Seqs.FirstIndex | src/ClassBuilder.php:191-199 | the result is the index of the first element satisfying the test, and None exactly when no element does |
| Seqs.Filter | src/ClassBuilder.php:204-210 | the result holds only kept elements, each as often as in the input |
| Seqs.FilterAppend | src/ClassBuilder.php:204-210 | filtering a concatenation filters each part, so survivors keep their relative order |
| CommentTrait.SetDocComment | src/Model/CommentTrait.php:14-19 | the doc comment becomes the argument and the comment lines are untouched |
| CommentTrait.AddComment | src/Model/CommentTrait.php:21-26 | exactly the argument is appended to the comment lines, and the doc comment is untouched |
| CommentTrait.AddComments | src/Model/CommentTrait.php:28-35 | the lines are appended in order, as `addComment` one at a time would append them |
| CommentTrait.Block | src/Model/Property.php:21-28 | the block is always truthy: a truthy doc comment verbatim, otherwise `/**\n`, then exactly the rendered comment lines, then ` */` |
| CommentTrait.DocCommentWins | src/Model/Property.php:21 | a truthy doc comment is emitted verbatim, whatever the comment lines |
| CommentTrait.FalsyDocCommentFallsBack | src/Model/Property.php:21-28 | a doc comment of `""` or `"0"` renders as if none were set: the `/**` block |
| CommentTrait.EmptyBlock | src/Model/Property.php:22-27 | with no doc comment and no lines the block is `/**\n */` |
| CommentTrait.AddCommentExtendsBlock | src/Model/Property.php:23-27 | adding a line inserts exactly ` * line\n` before the closing ` */` |
| CommentTrait.AddCommentsRendersInOrder | src/Model/CommentTrait.php:28-35 | after `addComments`, the block lists the old lines and then the new ones, in order |
| CommentTrait.LineItemsAppend | src/Model/Property.php:24-26 | the rendered lines of a concatenation are the concatenation of the rendered lines |
| AccessTrait.SetAccess | src/Model/AccessTrait.php:15-23 | succeeds exactly for `public`, `private` and `protected` and stores the argument; otherwise raises InvalidAccess and keeps the old access |
| AccessTrait.SetAccessIsIdempotent | src/Model/AccessTrait.php:15-23 | setting the same access twice is setting it once |
| AccessTrait.SetAccessForgetsPrevious | src/Model/AccessTrait.php:21 | a successful call's outcome does not depend on the previous access |
| ClassMember.End | src/Model/AbstractClassMember.php:26-29 | `end()` succeeds exactly when there is a back-reference and then yields that very builder; before any `setClassBuilder` it is a TypeError |
| ClassMember.NewProperty | src/Model/Property.php:9-14 | a new property keeps its name, has no builder yet (`end()` fails), and carries the comment, value, access and static traits |
| ClassMember.NewConstant | src/Model/Constant.php:9-17 | a new constant keeps its name, has no builder yet, and carries the value and access traits only |
| ClassMember.NewMethod | src/Model/Method.php:12-21 | a new method keeps its name, has no builder yet, carries the comment, access, abstract and static traits, and has no closure and no return type |
| ClassMember.NewTraitUse | src/Model/TraitMember.php:9-12 | a new trait use keeps its name, has no builder yet, carries none of the traits, and has null traits and no definitions |
| ClassMember.SetClassBuilder | src/Model/AbstractClassMember.php:21-24 | afterwards `end()` yields the given builder; the name and all other fields are unchanged |
| ClassMember.ConstructorsStoreNameVerbatim | src/Model/AbstractClassMember.php:16-19 | every member kind stores its name exactly as given, without validation |
| ClassMember.FreshMemberHasNoBuilder | src/Model/AbstractClassMember.php:14 | a fresh member of any kind has no builder, so `end()` fails |
| ClassMember.EndReturnsLatestBuilder | src/Model/AbstractClassMember.php:21-29 | `end()` returns the builder of the most recent `setClassBuilder` |
| MemberTraits.SetStatic | src/Model/StaticTrait.php:13-17 | the static flag becomes the argument and no other field changes |
| MemberTraits.SetAbstract | src/Model/AbstractTrait.php:13-17 | the abstract flag becomes the argument and no other field changes |
| MemberTraits.SetValue | src/Model/ValueTrait.php:13-17 | the value is stored unchanged and no other field changes |
| MemberTraits.SetAccess | src/Model/AccessTrait.php:15-23 | on a member: succeeds exactly for the three visibilities and changes only the access; on failure the member is unchanged and InvalidAccess is raised |
| MemberTraits.StaticDefault | src/Model/StaticTrait.php:11 | a new property or method is not static |
| MemberTraits.AbstractDefault | src/Model/AbstractTrait.php:11 | a new method is not abstract |
| MemberTraits.ValueDefault | src/Model/ValueTrait.php:11 | a new property or constant holds null |
| MemberTraits.AccessDefault | src/Model/AccessTrait.php:13 | a new property, constant or method is `public`, which `setAccess` accepts |
| MemberTraits.SettersAreIdempotentLastWins | src/Model/ValueTrait.php:13-17 | for the static, abstract and value setters, repeating a call changes nothing and the last write wins |
| MemberTraits.SetAccessIdempotent | src/Model/AccessTrait.php:15-23 | on a member, setting the same access twice is setting it once |
| Properties.PropertyCode | src/Model/Property.php:16-31 | the code starts with the comment block, then the stored access, holds `static` at its slot exactly when the flag is set, and ends with `$name`, the ` = export` initializer and `;`; its length leaves nothing between the `static` slot and `$name` |
| Properties.StaticInsertsOnlyTheKeyword | src/Model/Property.php:18 | the static and non-static renderings differ only by the inserted word `static` |
| Properties.UnsetDefaultExportsNull | src/Model/Property.php:19 | a property without a default still ends with ` = ` + export(null) + `;` |
| Constants.ConstantCode | src/Model/Constant.php:19-22 | the code is exactly `const NAME = `, the exported value and `;`: it starts and ends so, and its length leaves nothing between |
| Constants.CodeIgnoresAccessAndBuilder | src/Model/Constant.php:21 | two constants with the same name and value emit the same code, whatever their access or builder |
| Constants.SetAccessDoesNotChangeCode | src/Model/Constant.php:21 | `setAccess` never changes a constant's code |
| Constants.UnsetValueExportsNull | src/Model/Constant.php:21 | a constant without `setValue` is `const NAME = ` + export(null) + `;` |
| Methods.SetClosure | src/Model/Method.php:23-28 | the closure is stored and nothing else changes |
| Methods.SetReturnType | src/Model/Method.php:40-45 | `getReturnType` then answers the stored value, and nothing else changes |
| Methods.ReturnTypeRoundTrip | src/Model/Method.php:35-45 | `getReturnType` returns what `setReturnType` stored, and the last call wins |
| Methods.ParameterCode | src/Model/Method.php:84-110 | the parameter starts with its prefix (for a typed one, the type and a space) and `$name` follows it; it ends with ` = export(default)` when there is a default; its length leaves nothing else, so ` = export(default)` follows `$name` directly; a plain parameter is just `$name` |
| Methods.TypeText | src/Model/Method.php:96-104 | a type is `?` when nullable, then `\` unless built in, then the type's name, with nothing else |
| Methods.ParameterPrefix | src/Model/Method.php:88-105 | before `$name` stand the type and a space, then `...` exactly for a variadic parameter, then `&` exactly for one passed by reference, with nothing else |
| Methods.ForwardsParameterNamesInOrder | src/Model/Method.php:127-131 | the forwarded arguments are the declared parameter list with types, `...`, `&` and defaults dropped, in order |
| Methods.CallTailEmptyIffNoParameters | src/Model/Method.php:131-134 | the argument tail is empty exactly when there are no parameters, and otherwise is `,` + the arguments |
| Methods.ForwardedArgumentsSplitBack | src/Model/Method.php:128-131 | splitting the forwarded arguments on `,` gives back `$name` for each parameter, in order |
| Methods.ExplicitReturnTypeOverridesClosure | src/Model/Method.php:59-67 | a truthy explicit return type renders as `: T`, whatever closure the method has |
| Methods.ReflectedReturnTypeRendering | src/Model/Method.php:67-81 | a reflected return type is `: ` or `: ?` (when nullable), then `\` unless built in or `self`, then the name |
| Methods.NoClosureMeansNoParametersNoReflection | src/Model/Method.php:58-64 | without a closure the parameter list and argument tail are empty and only an explicit return type appears |
| Methods.ExplicitVoidStillReturns | src/Model/Method.php:136-141 | `setReturnType('void')` still emits `return` |
| Methods.ReflectedVoidOmitsReturn | src/Model/Method.php:136-141 | a closure's own `void` return type drops `return` |
| Methods.MethodCode | src/Model/Method.php:47-164 | fails with a TypeError exactly for a forwarding method without a builder; the block sits after the first break; `abstract` stands at its slot, and the code ends with `;`, exactly for an abstract method; the signature follows `abstract`; a forwarding method ends with the body built from its builder's FCQN, and so with the forwarding call |
| Methods.MethodCodeSignature | src/Model/Method.php:118-161 | in a rendered method `static` stands at its slot exactly for a static method, ` function ` follows it, and the name stands right after ` function ` |
| Methods.Signature | src/Model/Method.php:161 | the signature starts with a space; the visibility, then `static` exactly for a static method, then ` function `, the name, `(` and the parameter list each sit right after the pieces before them; it ends with `) ` and the return type |
| Methods.ReturnTypeCode | src/Model/Method.php:59-81 | a truthy explicit type renders as `: T`; the text is empty exactly when there is neither an explicit nor a reflected type, and otherwise starts with `: ` |
| Methods.ParametersCode | src/Model/Method.php:84-115 | the list is empty exactly without parameters, starts with the first parameter's code, and splits back on `,` into each parameter's code in order when none holds a comma |
| Methods.ForwardingCall | src/Model/Method.php:127-155 | the call starts with `return` exactly when the closure's reflected type is not `void`; then comes `call_user_func($closure ` for a static method and `$closure->call($this ` otherwise; it ends with the forwarded arguments, `);`, a break and the closing brace, with nothing else |
| Methods.Body | src/Model/Method.php:119-156 | an abstract method's body is `;`; any other opens with `{` and a break, then looks the closure up by the builder's FCQN and the method's name, then rebinds it to the class when static, then a break, and ends with the forwarding call, with nothing else |
| Methods.AbstractMethodNeedsNoBuilder | src/Model/Method.php:117-122 | an abstract method always renders, with body `;`, even without a builder |
| TraitUses.SetTraits | src/Model/TraitMember.php:14-17 | the traits are stored and nothing else changes |
| TraitUses.SetDefinitions | src/Model/TraitMember.php:19-22 | the definitions are stored and nothing else changes |
| TraitUses.DefinitionsText | src/Model/TraitMember.php:36-43 | the text is `;` exactly when there are no definitions, and otherwise is braced |
| TraitUses.TraitUseCode | src/Model/TraitMember.php:45-47 | after the leading break comes `use `, then the traits text and a space; the code ends with the definitions text and the closing break; its length leaves nothing between the space and the definitions |
| TraitUses.AddingDefinitionExtendsBlock | src/Model/TraitMember.php:37-43 | one more definition `d` adds exactly `d;` before the closing brace |
| TraitUses.TraitsText | src/Model/TraitMember.php:26-34 | null renders as nothing, one trait string verbatim, and a list of comma-free names joins with `,` so that splitting on `,` gives the names back unprefixed and in order |
| TraitUses.OneTraitIsVerbatim | src/Model/TraitMember.php:28-30 | a single trait string is emitted verbatim, as a one-element list would be |
| TraitUses.NoDefinitionsByDefault | src/Model/TraitMember.php:12 | a fresh trait use has no definitions, so its clause ends with `;` |
| MemberList.Find | src/ClassBuilder.php:189-200 | the result is the first member of that kind with that name, and None exactly when there is none |
| MemberList.Remove | src/ClassBuilder.php:202-211 | no member of that kind and name survives, and every other member survives as often as before |
| MemberList.MatchIsUnique | src/ClassBuilder.php:192-193 | a member matches only its own kind and name, so a member of another kind is never returned |
| MemberList.FindCons | src/ClassBuilder.php:191-199 | a lookup answers the first member when it matches, and otherwise looks in the rest |
| MemberList.FindAfterAppend | src/ClassBuilder.php:247-250 | appending a member never hides an earlier match; the new member is found only when nothing earlier matches |
| MemberList.RemoveAppend | src/ClassBuilder.php:236-245 | removing from a concatenation removes from each part, so the survivors keep their relative order |
| MemberList.RemoveIsIdempotent | src/ClassBuilder.php:284-293 | removing twice is removing once |
| MemberList.FindAfterRemove | src/ClassBuilder.php:202-211 | after a removal the removed kind and name are not found, and every other lookup answers as before |
| ClassBuilder.SetName | src/ClassBuilder.php:62-71 | succeeds exactly for a valid name and stores it; otherwise raises InvalidClassName and leaves the builder unchanged |
| ClassBuilder.New | src/ClassBuilder.php:36-43 | the constructor succeeds exactly when the chosen name (the given one if truthy, else `DynamicClass` + uniqid) is valid, and yields the defaults with that name |
| ClassBuilder.FalsyNamesAreGenerated | src/ClassBuilder.php:38-40 | `""` and `"0"` are treated like a missing name |
| ClassBuilder.GeneratedNameIsValid | src/ClassBuilder.php:39 | the generated name is accepted whenever `uniqid` yields name bytes |
| ClassBuilder.NewIsWellFormed | src/ClassBuilder.php:27-33 | a new builder is well formed and has no namespace, parent, interfaces, members or comments, is neither final nor abstract, and is a `class` |
| ClassBuilder.FCQN | src/ClassBuilder.php:50-55 | the FCQN is the bare name without a namespace, and namespace + `\` + name with a truthy one |
| ClassBuilder.FcqnFragments | src/ClassBuilder.php:50-55 | the FCQN of a well-formed builder splits on `\` into the namespace's fragments followed by the name |
| ClassBuilder.SetNamespace | src/ClassBuilder.php:117-129 | succeeds exactly when every `\`-separated fragment is a valid name and stores the namespace; otherwise raises InvalidNamespace and leaves the builder unchanged |
| ClassBuilder.NamespaceFromFragments | src/ClassBuilder.php:119-124 | a namespace joined from fragments is accepted exactly when every fragment is a valid name |
| ClassBuilder.BadFragmentRejectsNamespace | src/ClassBuilder.php:120-123 | one rejected fragment, on either side of a `\`, rejects the whole namespace |
| ClassBuilder.SingleFragment | src/ClassBuilder.php:119-124 | a namespace without `\` is accepted exactly when it is a valid name |
| ClassBuilder.EmptyFragmentRejectsNamespace | src/ClassBuilder.php:119-124 | a leading, trailing or doubled `\` is rejected |
| ClassBuilder.BadLastFragment | src/ClassBuilder.php:119-124 | an invalid last fragment rejects the namespace |
| ClassBuilder.RejectedNamespaces | src/ClassBuilder.php:119-124 | `My\Name space` and `My\45` are rejected |
| ClassBuilder.RejectedNamespacesOfThree | src/ClassBuilder.php:119-124 | `My\Name\S pace` and `My\23\45` are rejected |
| ClassBuilder.AcceptedNamespaceIsTruthy | src/ClassBuilder.php:52 | an accepted namespace is never falsy, so the FCQN always separates it from the name |
| ClassBuilder.SetEntityType | src/ClassBuilder.php:332-343 | succeeds exactly for `class`, `trait` and `interface`; otherwise raises InvalidEntityType and leaves the builder unchanged |
| ClassBuilder.Extends | src/ClassBuilder.php:131-140 | succeeds exactly when the class exists and stores the parent; otherwise raises UnexistentClass and leaves the builder unchanged |
| ClassBuilder.GetParentClass | src/ClassBuilder.php:142-145 | returns the stored parent, and is a TypeError when none was set |
| ClassBuilder.AddInterface | src/ClassBuilder.php:161-170 | appends the interface exactly when it exists; otherwise raises UnexistentInterface and leaves the builder unchanged |
| ClassBuilder.Implements | src/ClassBuilder.php:152-159 | appends the longest prefix of the arguments that exist, in call order, and changes nothing else; it raises for the first missing interface exactly when there is one |
| ClassBuilder.ImplementsAppend | src/ClassBuilder.php:152-159 | implementing `xs` and then `ys` is implementing `xs + ys` |
| ClassBuilder.SetFinal | src/ClassBuilder.php:172-177 | the final flag becomes the argument and nothing else changes |
| ClassBuilder.SetAbstract | src/Model/AbstractTrait.php:13-17 | the builder's abstract flag becomes the argument and nothing else changes |
| ClassBuilder.SetComments | src/Model/CommentTrait.php:11-35 | the comment setters act on the builder's comment block only |
| ClassBuilder.AddMember | src/ClassBuilder.php:247-250 | the member is appended at the end and nothing else changes |
| ClassBuilder.AddProperty | src/ClassBuilder.php:179-187 | exactly one default property, named as given and pointing back at this builder, is appended; the rest is unchanged |
| ClassBuilder.AddConstant | src/ClassBuilder.php:213-221 | exactly one default constant, named as given and pointing back at this builder, is appended; the rest is unchanged |
| ClassBuilder.AddMethod | src/ClassBuilder.php:257-269 | exactly one default method, named as given, pointing back at this builder and holding the given closure, is appended |
| ClassBuilder.AddDoesNotValidateNames | src/ClassBuilder.php:179-187 | `addProperty` stores `01`, a name that `setName` rejects |
| ClassBuilder.FindAfterAddProperty | src/ClassBuilder.php:179-200 | after `addProperty(n)`, `getProperty(n)` finds the very same earlier property of that name if there is one, and otherwise the appended one |
| ClassBuilder.UseTraits | src/ClassBuilder.php:78-103 | neither a string nor a list is a TypeError; the first unknown trait raises UnexistentTrait before anything is added; otherwise exactly one trait use, named `trait` + uniqid and without a builder, is appended |
| ClassBuilder.RemoveMember | src/ClassBuilder.php:284-293 | the member list becomes the old one without the members of that kind and name, in order; those are no longer found, every other lookup answers as before, and nothing else changes |
| ClassBuilder.ValidatingSettersPreserveWellFormed | src/ClassBuilder.php:62-129 | `setName`, `setNamespace` and `setEntityType` keep a builder well formed whether they succeed or raise |
| ClassBuilder.OtherSettersPreserveWellFormed | src/ClassBuilder.php:131-293 | the remaining setters keep a builder well formed |
| ClassEmitter.NamespaceLine | src/ClassBuilder.php:347-350 | with a truthy namespace the line starts with `namespace `, ends with `;`, and what lies between is exactly the namespace; otherwise the line is falsy |
| ClassEmitter.AcceptedNamespaceIsDeclared | src/ClassBuilder.php:347-350 | a namespace accepted by `setNamespace` is always emitted as `namespace NS;` |
| ClassEmitter.ExtendsClause | src/ClassBuilder.php:364-367 | the clause is empty exactly when no truthy parent is set, and otherwise is `extends \` + parent: it starts and ends so, and its length leaves nothing between |
| ClassEmitter.Prefixed | src/ClassBuilder.php:369-372 | one entry per interface, in order, each a `\` followed by exactly that interface |
| ClassEmitter.ImplementsClause | src/ClassBuilder.php:373-376 | the clause is empty exactly when there are no interfaces, and otherwise starts with `implements ` |
| ClassEmitter.ImplementsClauseSplitsBack | src/ClassBuilder.php:369-376 | after `implements `, splitting on `,` gives back each interface with its `\`, in order |
| ClassEmitter.HeaderLayout | src/ClassBuilder.php:361-387 | the header starts with `final` exactly for a final entity, holds `abstract` after the first space exactly for an abstract one, then after the next space the entity type, the name and the extends clause, and ends with the implements clause |
| ClassEmitter.PlainHeader | src/ClassBuilder.php:361-387 | with no modifiers, parent or interfaces, the header line is the entity type and the name between the spaces of the empty slots |
| ClassEmitter.FinalInsertsOnlyItsKeyword | src/ClassBuilder.php:361 | `setFinal(true)` puts exactly `final` in front of the header line |
| ClassEmitter.OwnerFcqn | src/Model/Method.php:124-125 | a member without a builder gets none; one pointing back at the emitting builder gets its FCQN, and one pointing at another builder gets that builder's FCQN |
| ClassEmitter.MemberCode | src/ClassBuilder.php:379-381 | a member's code fails, with a TypeError, exactly for a forwarding method without a builder; every kind yields its own `getCode`, a method's with the FCQN of the builder it points at |
| ClassEmitter.Concat | src/ClassBuilder.php:378-381 | the concatenation succeeds exactly when every piece does, and a failure is one of the pieces' |
| ClassEmitter.MembersCode | src/ClassBuilder.php:378-381 | the members' code succeeds exactly when every member renders, and fails with a TypeError otherwise |
| ClassEmitter.MembersCodeAppend | src/ClassBuilder.php:378-381 | the code of a concatenation of members is the concatenation of their codes, in list order |
| ClassEmitter.Code | src/ClassBuilder.php:345-394 | `getCode` succeeds exactly when every member renders, starts with the namespace line, comment block and header, and ends with the closing brace |
| ClassEmitter.AddMemberAppendsItsCode | src/ClassBuilder.php:378-391 | adding a member inserts exactly its code before the closing brace |
| ClassEmitter.EmptyBuilderCode | src/ClassBuilder.php:383-391 | a builder without members emits only the template around an empty body |
| ClassEmitter.AddedMethodRenders | src/ClassBuilder.php:257-269 | a method added through the builder always renders, because its back-reference is set |
| TraitBuilder.New | src/TraitBuilder.php:11-16 | succeeds exactly when the class-builder constructor does, with the same error; the result is that builder with entity type `trait` |
| TraitBuilder.TraitHeaderDeclaresTrait | src/TraitBuilder.php:11-16 | a fresh trait builder is well formed and its header line declares a trait with no modifiers, parent or interfaces |

## Left out

- `install`, `newInstance`, `isInstalled`, `getInstalledInstances` and `eval`: these use the runtime class registry. The method body's lookup through the registry is emitted as text only.
- `__toString` returns `getFCQN()`; it has no member of its own, `FCQN` stands for both.
- Closure reflection, `Closure::bind`, `$closure->call` and `call_user_func`: reflection is replaced by the `Closure` record, which holds the parameters and the return type. The calls appear only as emitted text.
- `strval` of a reflected type varies between PHP versions: the record's type name is taken as the printed text.
- `class_exists`, `interface_exists` and `trait_exists` are predicate parameters, and `var_export` is a function parameter. `uniqid` is a string parameter: `unique` in the constructor and in `use`.
- The exception classes only format messages: each exception is an `Error` variant carrying the offending string.
- Floats and arrays as property, constant or parameter values are not modelled. `Value` holds null, booleans, integers and strings.
- Object identity: fluent setters return `$this`, and `add*` returns the member object, which the caller may go on mutating in place. Here a setter returns a new record, so changing a member after adding it means replacing it in the list. The traits' "returns the same object" promises have no counterpart.
- `unset` in `remove*` leaves holes in the PHP array keys. Only the order of the surviving members is modelled.
- `getName`, `getNamespace`, `getInterfaces`, `getMembers` and `getEntityType` are the record's fields.
- `Method::getClosure` is the `closure` field. With no closure it would be a TypeError, which is not modelled.
- The test-only features absent from the code are not part of this model: `Property::setType`, `AbstractClassMember::setName` and `InterfaceBuilder`.
- `use` with a list that is an associative array, or that holds non-strings, is not modelled: the list is a `seq<string>`. `NoTraits` stands for any argument that is neither a string nor an array.
- The `ThenLabs` and `NubecuLabs` namespace declarations of the source files have no behaviour and are not modelled.

=== FILE: access_trait.dfy ===
/** `AccessTrait`: the visibility keyword of a property, constant or method. */
module AccessTrait {

  import opened Wrappers

  const Public := "public"
  const Private := "private"
  const Protected := "protected"

  /** The accepted visibilities. */
  predicate ValidAccess(access: string) {
    access == Public || access == Private || access == Protected
  }

  /** `setAccess` on the stored visibility `current`: an accepted value replaces it, anything
      else raises InvalidAccess and leaves it as it was. */
  function SetAccess(current: string, access: string): (r: Effect<string>)
    ensures !r.Raised() <==> ValidAccess(access)
    ensures !r.Raised() ==> r.state == access
    ensures r.Raised() ==> r.state == current && r.raised == Some(InvalidAccess(access))
  {
    if !ValidAccess(access) then Effect(current, Some(InvalidAccess(access)))
    else Effect(access, None)
  }

  /** Setting the same visibility twice is setting it once. */
  lemma SetAccessIsIdempotent(current: string, access: string)
    ensures SetAccess(SetAccess(current, access).state, access) == SetAccess(current, access)
  {
  }

  /** Whatever was stored before, a successful call leaves only its argument. */
  lemma SetAccessForgetsPrevious(a: string, b: string, access: string)
    requires ValidAccess(access)
    ensures SetAccess(a, access) == SetAccess(b, access)
  {
  }
}

=== FILE: class_builder.dfy ===
/** `ClassBuilder`: the descriptor of a class, trait or interface under construction — its name,
    namespace, parent, interfaces, modifiers, comment block and ordered members — and the
    setters that validate what they store. */
module ClassBuilder {

  import opened Wrappers
  import opened Php
  import opened Seqs
  import opened Helpers
  import opened CommentTrait
  import opened ClassMember
  import opened MemberList
  import AccessTrait
  import Methods
  import TraitUses

  const EntityClass := "class"
  const EntityTrait := "trait"
  const EntityInterface := "interface"

  /** The prefix of the name a builder gets when it is constructed without a usable one. */
  const GeneratedNamePrefix := "DynamicClass"

  /** The state of one builder object. `id` stands for the object's identity, which members
      point back to. */
  datatype Builder = Builder(
    id: BuilderId,
    name: string,
    namespace: Option<string>,
    parentClass: Option<string>,
    interfaces: seq<string>,
    isFinal: bool,
    isAbstract: bool,
    members: seq<Member>,
    entityType: string,
    comments: Comments)

  /** The property defaults, before the constructor names the builder. */
  function Blank(id: BuilderId): Builder {
    Builder(id, "", None, None, [], false, false, [], EntityClass, NoComments)
  }

  predicate ValidEntityType(entityType: string) {
    entityType == EntityClass || entityType == EntityTrait || entityType == EntityInterface
  }

  /** `explode('\\', $namespace)` and every fragment passes the name check. */
  predicate ValidNamespace(namespace: string) {
    var fragments := Explode('\\', namespace);
    forall i :: 0 <= i < |fragments| ==> ValidNameForClassMember(fragments[i])
  }

  /** What every setter keeps true of a builder: the name, the namespace (once set) and the
      entity type are ones the setters accept. */
  predicate WellFormed(b: Builder) {
    && ValidNameForClassMember(b.name)
    && (b.namespace.Some? ==> ValidNamespace(b.namespace.value))
    && ValidEntityType(b.entityType)
  }

  /** `setName` */
  function SetName(b: Builder, name: string): (r: Effect<Builder>)
    ensures !r.Raised() <==> ValidNameForClassMember(name)
    ensures !r.Raised() ==> r.state == b.(name := name)
    ensures r.Raised() ==> r == Effect(b, Some(InvalidClassName(name)))
  {
    if ValidNameForClassMember(name) then Effect(b.(name := name), None)
    else Effect(b, Some(InvalidClassName(name)))
  }

  /** The name the constructor uses: the given one when it is truthy, otherwise
      `DynamicClass` followed by `uniqid()`, which is the parameter `unique`. */
  function ChosenName(name: Option<string>, unique: string): string {
    if TruthyOpt(name) then name.value else GeneratedNamePrefix + unique
  }

  /** `new ClassBuilder($name)`: the defaults, then `setName`, whose exception escapes the
      constructor. */
  function New(id: BuilderId, name: Option<string>, unique: string): (r: Result<Builder>)
    ensures r.Ok? <==> ValidNameForClassMember(ChosenName(name, unique))
    ensures r.Ok? ==> r.value == Blank(id).(name := ChosenName(name, unique))
    ensures r.Err? ==> r.error == InvalidClassName(ChosenName(name, unique))
  {
    var e := SetName(Blank(id), ChosenName(name, unique));
    if e.Raised() then Err(e.raised.value) else Ok(e.state)
  }

  /** `getFCQN`: the namespace, a `\` when the namespace is truthy, and the name. */
  function FCQN(b: Builder): (r: string)
    ensures b.namespace.None? ==> r == b.name
    ensures TruthyOpt(b.namespace) ==> r == b.namespace.value + "\\" + b.name
  {
    Interpolate(b.namespace) + (if TruthyOpt(b.namespace) then "\\" else "") + b.name
  }

  /** `setNamespace`: rejected as a whole when any fragment is not a valid name. */
  function SetNamespace(b: Builder, namespace: string): (r: Effect<Builder>)
    ensures !r.Raised() <==> ValidNamespace(namespace)
    ensures !r.Raised() ==> r.state == b.(namespace := Some(namespace))
    ensures r.Raised() ==> r == Effect(b, Some(InvalidNamespace(namespace)))
  {
    if ValidNamespace(namespace) then Effect(b.(namespace := Some(namespace)), None)
    else Effect(b, Some(InvalidNamespace(namespace)))
  }

  /** `setEntityType` */
  function SetEntityType(b: Builder, entityType: string): (r: Effect<Builder>)
    ensures !r.Raised() <==> ValidEntityType(entityType)
    ensures !r.Raised() ==> r.state == b.(entityType := entityType)
    ensures r.Raised() ==> r == Effect(b, Some(InvalidEntityType(entityType)))
  {
    if ValidEntityType(entityType) then Effect(b.(entityType := entityType), None)
    else Effect(b, Some(InvalidEntityType(entityType)))
  }

  /** `extends`: `classExists` stands for `class_exists` at the time of the call. */
  function Extends(b: Builder, parentClass: string, classExists: string -> bool): (r: Effect<Builder>)
    ensures !r.Raised() <==> classExists(parentClass)
    ensures !r.Raised() ==> r.state == b.(parentClass := Some(parentClass))
    ensures r.Raised() ==> r == Effect(b, Some(UnexistentClass(parentClass)))
  {
    if classExists(parentClass) then Effect(b.(parentClass := Some(parentClass)), None)
    else Effect(b, Some(UnexistentClass(parentClass)))
  }

  /** `getParentClass`: declared to return a string, so an unset parent is a TypeError. */
  function GetParentClass(b: Builder): (r: Result<string>)
    ensures r.Ok? <==> b.parentClass.Some?
    ensures r.Ok? ==> r.value == b.parentClass.value
    ensures r.Err? ==> r.error == TypeError
  {
    if b.parentClass.Some? then Ok(b.parentClass.value) else Err(TypeError)
  }

  /** `addInterface`: `interfaceExists` stands for `interface_exists`. */
  function AddInterface(b: Builder, interfaceName: string, interfaceExists: string -> bool): (r: Effect<Builder>)
    ensures !r.Raised() <==> interfaceExists(interfaceName)
    ensures !r.Raised() ==> r.state == b.(interfaces := b.interfaces + [interfaceName])
    ensures r.Raised() ==> r == Effect(b, Some(UnexistentInterface(interfaceName)))
  {
    if interfaceExists(interfaceName) then Effect(b.(interfaces := b.interfaces + [interfaceName]), None)
    else Effect(b, Some(UnexistentInterface(interfaceName)))
  }

  /** `implements(...$interfaces)`: `addInterface` for each in turn. The first unknown interface
      raises, and the ones before it stay added. */
  function Implements(b: Builder, interfaces: seq<string>, interfaceExists: string -> bool): (r: Effect<Builder>)
    ensures |b.interfaces| <= |r.state.interfaces| <= |b.interfaces| + |interfaces|
    ensures var k := |r.state.interfaces| - |b.interfaces|;
            && r.state == b.(interfaces := b.interfaces + interfaces[..k])
            && (forall j :: 0 <= j < k ==> interfaceExists(interfaces[j]))
            && (!r.Raised() <==> k == |interfaces|)
            && (r.Raised() ==> !interfaceExists(interfaces[k])
                               && r.raised == Some(UnexistentInterface(interfaces[k])))
    decreases |interfaces|
  {
    if |interfaces| == 0 then
      assert interfaces[..0] == [];
      Effect(b, None)
    else
      var first := AddInterface(b, interfaces[0], interfaceExists);
      if first.Raised() then
        assert interfaces[..0] == [];
        first
      else
        var r := Implements(first.state, interfaces[1..], interfaceExists);
        var k := |r.state.interfaces| - |first.state.interfaces|;
        assert [interfaces[0]] + interfaces[1..][..k] == interfaces[..k + 1];
        assert first.state.interfaces + interfaces[1..][..k] == b.interfaces + interfaces[..k + 1];
        r
  }

  /** `setFinal` */
  function SetFinal(b: Builder, isFinal: bool): (r: Builder)
    ensures r.isFinal == isFinal
    ensures r.(isFinal := b.isFinal) == b
  {
    b.(isFinal := isFinal)
  }

  /** `setAbstract`, from `AbstractTrait` */
  function SetAbstract(b: Builder, isAbstract: bool): (r: Builder)
    ensures r.isAbstract == isAbstract
    ensures r.(isAbstract := b.isAbstract) == b
  {
    b.(isAbstract := isAbstract)
  }

  /** `setDocComment`, `addComment` and `addComments` act on the builder's comment block. */
  function SetComments(b: Builder, comments: Comments): (r: Builder)
    ensures r.comments == comments
    ensures r.(comments := b.comments) == b
  {
    b.(comments := comments)
  }

  /** `addMember`: appended as given, with no check. */
  function AddMember(b: Builder, m: Member): (r: Builder)
    ensures r.members == b.members + [m]
    ensures r.(members := b.members) == b
  {
    b.(members := b.members + [m])
  }

  /** `addProperty`: a fresh property pointing back at this builder, appended. The name is not
      validated here. */
  function AddProperty(b: Builder, name: string): (r: Builder)
    ensures |r.members| == |b.members| + 1 && r.members[..|b.members|] == b.members
    ensures var p := r.members[|b.members|];
            p == Property(name, Some(b.id), NoComments, AccessTrait.Public, false, Null)
            && End(p) == Ok(b.id)
    ensures r.(members := b.members) == b
  {
    assert (b.members + [SetClassBuilder(NewProperty(name), b.id)])[..|b.members|] == b.members;
    AddMember(b, SetClassBuilder(NewProperty(name), b.id))
  }

  /** `addConstant`, likewise. */
  function AddConstant(b: Builder, name: string): (r: Builder)
    ensures |r.members| == |b.members| + 1 && r.members[..|b.members|] == b.members
    ensures var c := r.members[|b.members|];
            c == Constant(name, Some(b.id), AccessTrait.Public, Null) && End(c) == Ok(b.id)
    ensures r.(members := b.members) == b
  {
    assert (b.members + [SetClassBuilder(NewConstant(name), b.id)])[..|b.members|] == b.members;
    AddMember(b, SetClassBuilder(NewConstant(name), b.id))
  }

  /** `addMethod`: the closure, when one is given, is stored on the new method. */
  function AddMethod(b: Builder, name: string, closure: Option<Closure>): (r: Builder)
    ensures |r.members| == |b.members| + 1 && r.members[..|b.members|] == b.members
    ensures var m := r.members[|b.members|];
            m == Method(name, Some(b.id), NoComments, AccessTrait.Public, false, false, closure, None)
            && End(m) == Ok(b.id)
    ensures r.(members := b.members) == b
  {
    var m := SetClassBuilder(NewMethod(name), b.id);
    var m' := if closure.Some? then Methods.SetClosure(m, closure.value) else m;
    assert (b.members + [m'])[..|b.members|] == b.members;
    AddMember(b, m')
  }

  /** `use($traits, $definitions)`: `traitExists` stands for `trait_exists` and `unique` for
      `uniqid('trait')` without its prefix. Neither a string nor an array (`NoTraits`) is a
      TypeError; otherwise every trait is checked in order and the first unknown one raises
      before anything is added. The trait use gets no back-reference to the builder. */
  function UseTraits(b: Builder, traits: Traits, definitions: seq<string>,
                     traitExists: string -> bool, unique: string): (r: Effect<Builder>)
    ensures traits.NoTraits? ==> r == Effect(b, Some(TypeError))
    ensures traits.OneTrait? ==> (r.Raised() <==> !traitExists(traits.traitName))
    ensures traits.OneTrait? && r.Raised() ==> r.raised == Some(UnexistentTrait(traits.traitName))
    ensures traits.TraitList? ==>
              (r.Raised() <==> exists i :: 0 <= i < |traits.traitNames| && !traitExists(traits.traitNames[i]))
    ensures traits.TraitList? && r.Raised() ==>
              exists k :: 0 <= k < |traits.traitNames| && r.raised == Some(UnexistentTrait(traits.traitNames[k]))
                          && !traitExists(traits.traitNames[k])
                          && forall j :: 0 <= j < k ==> traitExists(traits.traitNames[j])
    ensures r.Raised() ==> r.state == b
    ensures !r.Raised() ==> r.state == AddMember(b, TraitUse("trait" + unique, None, traits, definitions))
  {
    var added := TraitUses.SetDefinitions(TraitUses.SetTraits(NewTraitUse("trait" + unique), traits), definitions);
    assert added == TraitUse("trait" + unique, None, traits, definitions);
    match traits
    case NoTraits => Effect(b, Some(TypeError))
    case OneTrait(t) =>
      if traitExists(t) then Effect(AddMember(b, added), None)
      else Effect(b, Some(UnexistentTrait(t)))
    case TraitList(ts) =>
      match FirstIndex(ts, t => !traitExists(t))
      case None => Effect(AddMember(b, added), None)
      case Some(k) => Effect(b, Some(UnexistentTrait(ts[k])))
  }

  /** `removeProperty`, `removeConstant`, `removeMethod` */
  function RemoveMember(b: Builder, kind: Kind, name: string): (r: Builder)
    ensures Find(r.members, kind, name).None?
    ensures forall k, n :: k != kind || n != name ==> Find(r.members, k, n) == Find(b.members, k, n)
    ensures r.members == Remove(b.members, kind, name)
    ensures r.(members := b.members) == b
  {
    var r := b.(members := Remove(b.members, kind, name));
    forall k, n | k != kind || n != name
      ensures Find(r.members, k, n) == Find(b.members, k, n)
    {
      FindAfterRemove(b.members, kind, name, k, n);
    }
    FindAfterRemove(b.members, kind, name, kind, name);
    r
  }

  // Properties of the builder's state.

  /** A falsy name — null, "" or "0" — is replaced by a generated one. */
  lemma FalsyNamesAreGenerated(id: BuilderId, unique: string)
    ensures New(id, Some(""), unique) == New(id, None, unique)
    ensures New(id, Some("0"), unique) == New(id, None, unique)
  {
  }

  /** The generated name is accepted whenever `uniqid()` yields name bytes, as its hexadecimal
      digits are. */
  lemma {:induction false} GeneratedNameIsValid(id: BuilderId, unique: string)
    requires forall i :: 0 <= i < |unique| ==> IsTailByte(unique[i])
    ensures New(id, None, unique).Ok?
    ensures New(id, None, unique).value.name == GeneratedNamePrefix + unique
  {
    var n := GeneratedNamePrefix + unique;
    assert forall i :: |GeneratedNamePrefix| <= i < |n| ==> n[i] == unique[i - |GeneratedNamePrefix|];
    assert IsIdentifier(n);
  }

  /** A builder the constructor returns is well formed and has the documented defaults. */
  lemma NewIsWellFormed(id: BuilderId, name: Option<string>, unique: string)
    requires New(id, name, unique).Ok?
    ensures var b := New(id, name, unique).value;
            WellFormed(b) && b.id == id && b.entityType == EntityClass
            && b.namespace.None? && b.parentClass.None? && b.interfaces == [] && b.members == []
            && !b.isFinal && !b.isAbstract && b.comments == NoComments
  {
  }

  /** The validating setters keep a builder well formed, whether they succeed or raise. */
  lemma ValidatingSettersPreserveWellFormed(b: Builder, s: string)
    requires WellFormed(b)
    ensures WellFormed(SetName(b, s).state)
    ensures WellFormed(SetNamespace(b, s).state)
    ensures WellFormed(SetEntityType(b, s).state)
  {
  }

  /** The other setters do not touch what well-formedness is about. */
  lemma OtherSettersPreserveWellFormed(b: Builder, s: string, flag: bool, m: Member, kind: Kind,
                                       traits: Traits, ds: seq<string>, names: seq<string>,
                                       known: string -> bool)
    requires WellFormed(b)
    ensures WellFormed(Extends(b, s, known).state)
    ensures WellFormed(Implements(b, names, known).state)
    ensures WellFormed(UseTraits(b, traits, ds, known, s).state)
    ensures WellFormed(SetFinal(b, flag)) && WellFormed(SetAbstract(b, flag))
    ensures WellFormed(AddMember(b, m)) && WellFormed(RemoveMember(b, kind, s))
  {
    var i := Implements(b, names, known).state;
    assert i.name == b.name && i.namespace == b.namespace && i.entityType == b.entityType;
    var u := UseTraits(b, traits, ds, known, s).state;
    assert u.name == b.name && u.namespace == b.namespace && u.entityType == b.entityType;
    var r := RemoveMember(b, kind, s);
    assert r.name == b.name && r.namespace == b.namespace && r.entityType == b.entityType;
  }

  /** An accepted namespace is never falsy, so `getFCQN` always puts the separator after it. */
  lemma AcceptedNamespaceIsTruthy(namespace: string)
    requires ValidNamespace(namespace)
    ensures Truthy(namespace)
  {
    if namespace == "" {
      EmptyNameIsInvalid();
      SingleFragment("");
    } else if namespace == "0" {
      DigitLedNameIsInvalid("0");
      SingleFragment("0");
    }
  }

  /** The namespace joined from fragments is accepted exactly when every fragment is a valid
      name. */
  lemma NamespaceFromFragments(fragments: seq<string>)
    requires |fragments| > 0
    requires forall i :: 0 <= i < |fragments| ==> '\\' !in fragments[i]
    ensures ValidNamespace(Implode("\\", fragments))
            <==> forall i :: 0 <= i < |fragments| ==> ValidNameForClassMember(fragments[i])
  {
    ExplodeImplode('\\', fragments);
  }

  /** One bad fragment, anywhere, rejects the namespace. */
  lemma BadFragmentRejectsNamespace(left: string, right: string)
    requires !ValidNamespace(left) || !ValidNamespace(right)
    ensures !ValidNamespace(left + "\\" + right)
  {
    ExplodeAround('\\', left, right);
    var l := Explode('\\', left);
    var r := Explode('\\', right);
    if !ValidNamespace(left) {
      var i :| 0 <= i < |l| && !ValidNameForClassMember(l[i]);
      assert (l + r)[i] == l[i];
    } else {
      var i :| 0 <= i < |r| && !ValidNameForClassMember(r[i]);
      assert (l + r)[|l| + i] == r[i];
    }
  }

  /** A single fragment is accepted exactly when it is a valid name. */
  lemma SingleFragment(fragment: string)
    requires '\\' !in fragment
    ensures ValidNamespace(fragment) <==> ValidNameForClassMember(fragment)
  {
    ExplodeWithoutDelimiter('\\', fragment);
    var f := Explode('\\', fragment);
    assert |f| == 1 && f[0] == fragment;
    if ValidNamespace(fragment) {
      assert ValidNameForClassMember(f[0]);
    }
  }

  /** An empty fragment — a leading, a trailing or a doubled `\` — rejects the namespace. */
  lemma EmptyFragmentRejectsNamespace(left: string, right: string)
    ensures !ValidNamespace("\\" + right)
    ensures !ValidNamespace(left + "\\")
    ensures !ValidNamespace(left + "\\\\" + right)
  {
    EmptyNameIsInvalid();
    SingleFragment("");
    assert "\\" + right == "" + "\\" + right;
    BadFragmentRejectsNamespace("", right);
    assert left + "\\" == left + "\\" + "";
    BadFragmentRejectsNamespace(left, "");
    assert left + "\\\\" + right == left + "\\" + ("" + "\\" + right);
    BadFragmentRejectsNamespace(left, "\\" + right);
  }

  /** A namespace whose last fragment is not a valid name is rejected. */
  lemma BadLastFragment(left: string, last: string)
    requires '\\' !in last && !ValidNameForClassMember(last)
    ensures !ValidNamespace(left + "\\" + last)
  {
    SingleFragment(last);
    BadFragmentRejectsNamespace(left, last);
  }

  /** The namespaces the builder's own examples reject: `My\Name space` and `My\45`, whose
      second fragment holds a space or starts with a digit, ... */
  lemma RejectedNamespaces()
    ensures !ValidNamespace("My\\Name space")
    ensures !ValidNamespace("My\\45")
  {
    var space := "Name space";
    SpaceOrDollarMakesNameInvalid(space, 4);
    BadLastFragment("My", space);
    assert "My" + "\\" + space == "My\\Name space";
    var digits := "45";
    DigitLedNameIsInvalid(digits);
    BadLastFragment("My", digits);
    assert "My" + "\\" + digits == "My\\45";
  }

  /** ... and `My\Name\S pace` and `My\23\45`, with three fragments each. */
  lemma RejectedNamespacesOfThree()
    ensures !ValidNamespace("My\\Name\\S pace")
    ensures !ValidNamespace("My\\23\\45")
  {
    var space := "S pace";
    SpaceOrDollarMakesNameInvalid(space, 1);
    BadLastFragment("My\\Name", space);
    assert "My\\Name" + "\\" + space == "My\\Name\\S pace";
    var digits := "23";
    DigitLedNameIsInvalid(digits);
    SingleFragment(digits);
    BadFragmentRejectsNamespace(digits, "45");
    BadFragmentRejectsNamespace("My", digits + "\\" + "45");
    assert "My" + "\\" + (digits + "\\" + "45") == "My\\23\\45";
  }

  /** The FCQN of a well-formed builder splits on `\` into the namespace's fragments followed
      by the name. */
  lemma FcqnFragments(b: Builder)
    requires WellFormed(b)
    ensures b.namespace.None? ==> Explode('\\', FCQN(b)) == [b.name]
    ensures b.namespace.Some? ==>
              Explode('\\', FCQN(b)) == Explode('\\', b.namespace.value) + [b.name]
  {
    ValidNameHasNoSeparators(b.name);
    ExplodeWithoutDelimiter('\\', b.name);
    if b.namespace.Some? {
      AcceptedNamespaceIsTruthy(b.namespace.value);
      ExplodeAround('\\', b.namespace.value, b.name);
    }
  }

  /** Implementing a list of existing interfaces appends all of them in order; implementing
      in two calls is implementing the concatenation. */
  lemma {:induction false} ImplementsAppend(b: Builder, xs: seq<string>, ys: seq<string>, interfaceExists: string -> bool)
    requires !Implements(b, xs, interfaceExists).Raised()
    ensures Implements(b, xs + ys, interfaceExists)
            == Implements(Implements(b, xs, interfaceExists).state, ys, interfaceExists)
    decreases |xs|
  {
    if |xs| > 0 {
      assert (xs + ys)[0] == xs[0];
      assert (xs + ys)[1..] == xs[1..] + ys;
      var first := AddInterface(b, xs[0], interfaceExists);
      ImplementsAppend(first.state, xs[1..], ys, interfaceExists);
    } else {
      assert xs + ys == ys;
    }
  }

  /** `add*` stores names without validating them: `01`, which `setName` rejects, becomes a
      property name. */
  lemma AddDoesNotValidateNames(b: Builder)
    ensures !ValidNameForClassMember("01")
    ensures AddProperty(b, "01").members[|b.members|].name == "01"
  {
    DigitLedNameIsInvalid("01");
  }

  /** After `addProperty($name)`, `getProperty($name)` finds the earlier property of that name
      if there is one, and otherwise the new one. */
  lemma FindAfterAddProperty(b: Builder, name: string)
    ensures var found := Find(AddProperty(b, name).members, PropertyKind, name);
            found.Some? && End(found.value) == (if Find(b.members, PropertyKind, name).Some?
                                                then End(Find(b.members, PropertyKind, name).value)
                                                else Ok(b.id))
    ensures Find(AddProperty(b, name).members, PropertyKind, name)
            == if Find(b.members, PropertyKind, name).Some? then Find(b.members, PropertyKind, name)
               else Some(AddProperty(b, name).members[|b.members|])
  {
    var r := AddProperty(b, name);
    assert r.members == b.members + [r.members[|b.members|]];
    FindAfterAppend(b.members, r.members[|b.members|], PropertyKind, name);
  }
}

=== FILE: class_emitter.dfy ===
/** `ClassBuilder::getCode`: the PHP source of the whole entity — namespace line, comment block,
    header line and the concatenated code of the members — laid out as the builder's template
    lays it out. */
module ClassEmitter {

  import opened Wrappers
  import opened Php
  import opened CommentTrait
  import opened ClassMember
  import opened ClassBuilder
  import Properties
  import Constants
  import Methods
  import TraitUses

  /** `namespace NS;` for a truthy namespace; otherwise the namespace itself, interpolated. */
  function NamespaceLine(namespace: Option<string>): (r: string)
    ensures TruthyOpt(namespace) ==> StartsWith(r, "namespace ") && EndsWith(r, ";")
    ensures TruthyOpt(namespace) ==>
              |r| == |"namespace "| + |namespace.value| + 1 && r[|"namespace "|..|r| - 1] == namespace.value
    ensures !TruthyOpt(namespace) ==> !Truthy(r)
  {
    if TruthyOpt(namespace) then
      var line := "namespace " + namespace.value + ";";
      Framed("namespace ", namespace.value, ";");
      assert line[|"namespace "|..|line| - 1] == namespace.value;
      line
    else Interpolate(namespace)
  }

  /** `extends \Parent` for a truthy parent, "" otherwise. */
  function ExtendsClause(parentClass: Option<string>): (r: string)
    ensures r == "" <==> !TruthyOpt(parentClass)
    ensures TruthyOpt(parentClass) ==> StartsWith(r, "extends \\") && EndsWith(r, parentClass.value)
    ensures TruthyOpt(parentClass) ==> |r| == |"extends \\"| + |parentClass.value|
  {
    if TruthyOpt(parentClass) then
      StartsWithPrefix("extends \\", parentClass.value);
      EndsWithSuffix("extends \\", parentClass.value);
      "extends \\" + parentClass.value
    else ""
  }

  /** Each interface with a leading `\`, in order. */
  function Prefixed(interfaces: seq<string>): (r: seq<string>)
    ensures |r| == |interfaces|
    ensures forall i :: 0 <= i < |r| ==> StartsWith(r[i], "\\") && r[i][1..] == interfaces[i]
  {
    seq(|interfaces|, i requires 0 <= i < |interfaces| => "\\" + interfaces[i])
  }

  /** `implements \I1,\I2` with at least one interface, "" with none. */
  function ImplementsClause(interfaces: seq<string>): (r: string)
    ensures r == "" <==> |interfaces| == 0
    ensures |interfaces| > 0 ==> StartsWith(r, "implements ")
  {
    if |Prefixed(interfaces)| == 0 then ""
    else
      StartsWithPrefix("implements ", Implode(",", Prefixed(interfaces)));
      "implements " + Implode(",", Prefixed(interfaces))
  }

  /** `{$final} {$abstract} {$entityType} {$name} {$extends} {$implements}` */
  function HeaderLine(b: Builder): string {
    Keyword(b.isFinal, "final") + " " + Keyword(b.isAbstract, "abstract") + HeaderRest(b)
  }

  /** The header line after the `abstract` slot; it starts with a space. */
  function HeaderRest(b: Builder): (r: string)
    ensures |r| > 0 && r[0] == ' '
    ensures EndsWith(r, " " + ImplementsClause(b.interfaces))
  {
    var front := " " + b.entityType + " " + b.name + " " + ExtendsClause(b.parentClass);
    EndsWithSuffix(front, " " + ImplementsClause(b.interfaces));
    front + (" " + ImplementsClause(b.interfaces))
  }

  /** A builder with no modifiers, parent or interfaces emits only its entity type and name,
      between the spaces of the empty slots. */
  lemma PlainHeader(b: Builder)
    requires !b.isFinal && !b.isAbstract && !TruthyOpt(b.parentClass) && b.interfaces == []
    ensures HeaderLine(b) == "  " + b.entityType + " " + b.name + "  "
  {
    assert ExtendsClause(b.parentClass) == "";
    assert ImplementsClause(b.interfaces) == "";
    assert HeaderRest(b) == " " + b.entityType + " " + b.name + " " + "" + (" " + "");
    PlainHeaderText(b.entityType, b.name);
  }

  lemma PlainHeaderText(entityType: string, name: string)
    ensures "" + " " + "" + (" " + entityType + " " + name + " " + "" + (" " + ""))
            == "  " + entityType + " " + name + "  "
  {
  }

  /** The header starts with `final` exactly for a final entity, holds `abstract` right after
      the first space exactly for an abstract one, then, after the next space, the entity type,
      the name and the extends clause, and ends with the implements clause. */
  lemma HeaderLayout(b: Builder)
    ensures StartsWith(HeaderLine(b), "final") <==> b.isFinal
    ensures HasAt(HeaderLine(b), |Keyword(b.isFinal, "final")| + 1, "abstract") <==> b.isAbstract
    ensures HasAt(HeaderLine(b), |Keyword(b.isFinal, "final")| + |Keyword(b.isAbstract, "abstract")| + 2,
                  b.entityType + " " + b.name + " " + ExtendsClause(b.parentClass))
    ensures EndsWith(HeaderLine(b), " " + ImplementsClause(b.interfaces))
  {
    var final := Keyword(b.isFinal, "final");
    var abs := Keyword(b.isAbstract, "abstract");
    var rest := HeaderRest(b);
    assert HeaderLine(b) == final + " " + (abs + rest);
    HeaderFinal(b.isFinal, abs + rest);
    HeaderAbstract(final, b.isAbstract, rest);
    EndsWithTail(final + " " + abs, rest, " " + ImplementsClause(b.interfaces));
    HeaderCoreAt(b);
  }

  lemma HeaderCoreAt(b: Builder)
    ensures HasAt(HeaderLine(b), |Keyword(b.isFinal, "final")| + |Keyword(b.isAbstract, "abstract")| + 2,
                  b.entityType + " " + b.name + " " + ExtendsClause(b.parentClass))
  {
    var final := Keyword(b.isFinal, "final");
    var abs := Keyword(b.isAbstract, "abstract");
    var core := b.entityType + " " + b.name + " " + ExtendsClause(b.parentClass);
    var tail := " " + ImplementsClause(b.interfaces);
    assert HeaderRest(b) == " " + core + tail;
    HeaderCore(final, abs, core, tail, |Keyword(b.isFinal, "final")| + |Keyword(b.isAbstract, "abstract")| + 2);
  }

  lemma HeaderCore(final: string, abs: string, core: string, tail: string, at: nat)
    requires at == |final| + |abs| + 2
    ensures HasAt(final + " " + abs + (" " + core + tail), at, core)
  {
    assert final + " " + abs + (" " + core + tail) == (final + " " + abs + " ") + core + tail;
    HasAtMiddle(final + " " + abs + " ", core, tail);
  }

  lemma EndsWithTail(a: string, b: string, w: string)
    requires EndsWith(b, w)
    ensures EndsWith(a + b, w)
  {
    assert (a + b)[|a + b| - |w|..] == b[|b| - |w|..];
  }

  lemma HeaderFinal(isFinal: bool, after: string)
    ensures StartsWith(Keyword(isFinal, "final") + " " + (after), "final") <==> isFinal
  {
    if isFinal {
      StartsWithPrefix("final", " " + after);
      assert "final" + " " + after == "final" + (" " + after);
    } else {
      assert ("" + " " + after)[0] == ' ';
    }
  }

  lemma HeaderAbstract(final: string, isAbstract: bool, after: string)
    requires |after| > 0 && after[0] == ' '
    ensures HasAt(final + " " + Keyword(isAbstract, "abstract") + after, |final| + 1, "abstract") <==> isAbstract
  {
    var s := final + " " + Keyword(isAbstract, "abstract") + after;
    if isAbstract {
      HasAtMiddle(final + " ", "abstract", after);
    } else {
      assert s == (final + " ") + after;
      assert s[|final| + 1] == ' ';
    }
  }

  /** The FCQN a member's method body looks the closure up by: the member's builder, which is
      `self` (with FCQN `selfFcqn`) or another builder whose FCQN `fcqnOf` gives; None when the
      member has no builder. */
  function OwnerFcqn(m: Member, self: BuilderId, selfFcqn: string, fcqnOf: BuilderId -> string): (r: Option<string>)
    ensures r.Some? <==> m.owner.Some?
    ensures m.owner == Some(self) ==> r == Some(selfFcqn)
    ensures m.owner.Some? && m.owner.value != self ==> r == Some(fcqnOf(m.owner.value))
  {
    match m.owner
    case None => None
    case Some(id) => Some(if id == self then selfFcqn else fcqnOf(id))
  }

  /** A member whose `getCode` does not raise: anything but a forwarding method without a
      builder. */
  predicate Renderable(m: Member) {
    !(m.Method? && !m.isAbstract && m.owner.None?)
  }

  /** `$member->getCode()`, dispatched on the member's kind. */
  function MemberCode(m: Member, self: BuilderId, selfFcqn: string, fcqnOf: BuilderId -> string,
                      varExport: Exporter): (r: Result<string>)
    ensures r.Ok? <==> Renderable(m)
    ensures r.Err? ==> r.error == TypeError
    ensures m.Property? ==> r == Ok(Properties.PropertyCode(m, varExport))
    ensures m.Constant? ==> r == Ok(Constants.ConstantCode(m, varExport))
    ensures m.TraitUse? ==> r == Ok(TraitUses.TraitUseCode(m))
    ensures m.Method? ==> r == Methods.MethodCode(m, OwnerFcqn(m, self, selfFcqn, fcqnOf), varExport)
  {
    match m
    case Property(_, _, _, _, _, _) => Ok(Properties.PropertyCode(m, varExport))
    case Constant(_, _, _, _) => Ok(Constants.ConstantCode(m, varExport))
    case Method(_, _, _, _, _, _, _, _) => MethodMemberCode(m, self, selfFcqn, fcqnOf, varExport)
    case TraitUse(_, _, _, _) => Ok(TraitUses.TraitUseCode(m))
  }

  /** A method's `getCode`, given the FCQN of the builder the method points at. */
  function MethodMemberCode(m: Member, self: BuilderId, selfFcqn: string, fcqnOf: BuilderId -> string,
                            varExport: Exporter): (r: Result<string>)
    requires m.Method?
    ensures r.Ok? <==> Renderable(m)
    ensures r.Err? ==> r.error == TypeError
  {
    var owner := OwnerFcqn(m, self, selfFcqn, fcqnOf);
    assert owner.None? <==> m.owner.None?;
    Methods.MethodCode(m, owner, varExport)
  }

  /** The concatenation of a sequence of results; the first failure aborts it. */
  function Concat(rs: seq<Result<string>>): (r: Result<string>)
    ensures r.Ok? <==> forall i :: 0 <= i < |rs| ==> rs[i].Ok?
    ensures r.Err? ==> exists i :: 0 <= i < |rs| && rs[i] == Err(r.error)
    decreases |rs|
  {
    if |rs| == 0 then Ok("")
    else
      match rs[0]
      case Err(e) => Err(e)
      case Ok(head) =>
        var tail := Concat(rs[1..]);
        assert forall i :: 1 <= i < |rs| ==> rs[i] == rs[1..][i - 1];
        if tail.Err? then Err(tail.error) else Ok(head + tail.value)
  }

  /** Concatenation is a homomorphism from sequence concatenation to string concatenation. */
  lemma {:induction false} ConcatAppend(xs: seq<Result<string>>, ys: seq<Result<string>>)
    requires Concat(xs).Ok? && Concat(ys).Ok?
    ensures Concat(xs + ys) == Ok(Concat(xs).value + Concat(ys).value)
    decreases |xs|
  {
    if |xs| == 0 {
      assert xs + ys == ys;
      assert Concat(xs).value + Concat(ys).value == Concat(ys).value;
    } else {
      assert (xs + ys)[0] == xs[0];
      assert (xs + ys)[1..] == xs[1..] + ys;
      assert Concat(xs[1..]).Ok? by {
        assert forall i :: 0 <= i < |xs| - 1 ==> xs[1..][i] == xs[i + 1];
      }
      ConcatAppend(xs[1..], ys);
      var head := xs[0].value;
      assert Concat(xs).value == head + Concat(xs[1..]).value;
      assert head + (Concat(xs[1..]).value + Concat(ys).value)
          == (head + Concat(xs[1..]).value) + Concat(ys).value;
    }
  }

  /** `getCode` of a member, as one function of the member. */
  function Coder(self: BuilderId, selfFcqn: string, fcqnOf: BuilderId -> string,
                 varExport: Exporter): Member -> Result<string>
  {
    m => MemberCode(m, self, selfFcqn, fcqnOf, varExport)
  }

  /** `f` applied to each member, in order. */
  function MapMembers(ms: seq<Member>, f: Member -> Result<string>): (r: seq<Result<string>>)
    ensures |r| == |ms|
  {
    seq(|ms|, i requires 0 <= i < |ms| => f(ms[i]))
  }

  lemma MapMembersAppend(xs: seq<Member>, ys: seq<Member>, f: Member -> Result<string>)
    ensures MapMembers(xs + ys, f) == MapMembers(xs, f) + MapMembers(ys, f)
  {
    var cx, cy, cxy := MapMembers(xs, f), MapMembers(ys, f), MapMembers(xs + ys, f);
    forall i | 0 <= i < |cxy|
      ensures cxy[i] == (cx + cy)[i]
    {
      if i < |xs| {
        assert (xs + ys)[i] == xs[i];
      } else {
        assert (xs + ys)[i] == ys[i - |xs|];
      }
    }
  }

  /** Each member's code, in order. */
  function Codes(ms: seq<Member>, self: BuilderId, selfFcqn: string, fcqnOf: BuilderId -> string,
                 varExport: Exporter): seq<Result<string>>
  {
    MapMembers(ms, Coder(self, selfFcqn, fcqnOf, varExport))
  }

  /** The `$members` of the template: the members' code concatenated in order; the first
      member that raises aborts it. */
  function MembersCode(ms: seq<Member>, self: BuilderId, selfFcqn: string, fcqnOf: BuilderId -> string,
                       varExport: Exporter): (r: Result<string>)
    ensures r.Ok? <==> forall i :: 0 <= i < |ms| ==> Renderable(ms[i])
    ensures r.Err? ==> r.error == TypeError
  {
    var codes := Codes(ms, self, selfFcqn, fcqnOf, varExport);
    assert forall i :: 0 <= i < |ms| ==> (codes[i].Ok? <==> Renderable(ms[i]));
    Concat(codes)
  }

  /** Everything the template puts before the members. */
  function Prelude(b: Builder): string {
    Break12 + NamespaceLine(b.namespace) + "\n"
    + Break12 + Block(b.comments)
    + Break12 + HeaderLine(b)
    + Break12 + "{" + Break16
  }

  /** Everything the template puts after the members. */
  const Closing := Break12 + "}" + Break8

  /** `getCode`. `fcqnOf` gives the FCQN of a builder other than `b` that a member may point
      back to; `varExport` is `var_export`. */
  function Code(b: Builder, fcqnOf: BuilderId -> string, varExport: Exporter): (r: Result<string>)
    ensures r.Ok? <==> forall i :: 0 <= i < |b.members| ==> Renderable(b.members[i])
    ensures r.Err? ==> r.error == TypeError
    ensures r.Ok? ==> StartsWith(r.value, Prelude(b)) && EndsWith(r.value, Closing)
  {
    match MembersCode(b.members, b.id, FCQN(b), fcqnOf, varExport)
    case Err(e) => Err(e)
    case Ok(members) =>
      Framed(Prelude(b), members, Closing);
      Ok(Prelude(b) + members + Closing)
  }

  // Properties of the emitted code.

  lemma CodesAppend(xs: seq<Member>, ys: seq<Member>, self: BuilderId,
                    selfFcqn: string, fcqnOf: BuilderId -> string, varExport: Exporter)
    ensures Codes(xs + ys, self, selfFcqn, fcqnOf, varExport)
            == Codes(xs, self, selfFcqn, fcqnOf, varExport) + Codes(ys, self, selfFcqn, fcqnOf, varExport)
  {
    MapMembersAppend(xs, ys, Coder(self, selfFcqn, fcqnOf, varExport));
  }

  /** The members' code is a homomorphism: the code of a concatenation is the concatenation
      of the codes. */
  lemma MembersCodeAppend(xs: seq<Member>, ys: seq<Member>, self: BuilderId,
                          selfFcqn: string, fcqnOf: BuilderId -> string, varExport: Exporter)
    requires MembersCode(xs, self, selfFcqn, fcqnOf, varExport).Ok?
    requires MembersCode(ys, self, selfFcqn, fcqnOf, varExport).Ok?
    ensures MembersCode(xs + ys, self, selfFcqn, fcqnOf, varExport)
            == Ok(MembersCode(xs, self, selfFcqn, fcqnOf, varExport).value
                  + MembersCode(ys, self, selfFcqn, fcqnOf, varExport).value)
  {
    CodesAppend(xs, ys, self, selfFcqn, fcqnOf, varExport);
    ConcatAppend(Codes(xs, self, selfFcqn, fcqnOf, varExport), Codes(ys, self, selfFcqn, fcqnOf, varExport));
  }

  /** The code of one member alone. */
  lemma SingleMemberCode(m: Member, self: BuilderId, selfFcqn: string, fcqnOf: BuilderId -> string, varExport: Exporter)
    requires Renderable(m)
    ensures MembersCode([m], self, selfFcqn, fcqnOf, varExport)
            == Ok(MemberCode(m, self, selfFcqn, fcqnOf, varExport).value)
  {
    var f := Coder(self, selfFcqn, fcqnOf, varExport);
    MapMembersSingle(m, f);
    assert f(m) == MemberCode(m, self, selfFcqn, fcqnOf, varExport);
    SingleConcat(f(m));
  }

  lemma MapMembersSingle(m: Member, f: Member -> Result<string>)
    ensures MapMembers([m], f) == [f(m)]
  {
  }

  lemma SingleConcat(r: Result<string>)
    requires r.Ok?
    ensures Concat([r]) == r
  {
    assert [r][1..] == [];
    assert r.value + "" == r.value;
  }

  /** Everything but the members' code is independent of the members. */
  lemma FrameIgnoresMembers(b: Builder, ms: seq<Member>)
    ensures Prelude(b.(members := ms)) == Prelude(b)
    ensures FCQN(b.(members := ms)) == FCQN(b)
  {
    var c := b.(members := ms);
    assert HeaderRest(c) == HeaderRest(b);
    assert HeaderLine(c) == HeaderLine(b);
  }

  /** The successful code is the template filled in. */
  lemma CodeShape(b: Builder, fcqnOf: BuilderId -> string, varExport: Exporter)
    ensures var ms := MembersCode(b.members, b.id, FCQN(b), fcqnOf, varExport);
            Code(b, fcqnOf, varExport) == if ms.Ok? then Ok(Prelude(b) + ms.value + Closing) else Err(ms.error)
  {
  }

  /** Adding a member adds its code right before the closing brace and changes nothing
      else. */
  lemma AddMemberAppendsItsCode(b: Builder, m: Member, fcqnOf: BuilderId -> string, varExport: Exporter)
    requires Code(b, fcqnOf, varExport).Ok? && Renderable(m)
    ensures var before := Code(b, fcqnOf, varExport).value;
            var after := Code(AddMember(b, m), fcqnOf, varExport);
            after.Ok? &&
            after.value == before[..|before| - |Closing|]
                           + MemberCode(m, b.id, FCQN(b), fcqnOf, varExport).value + Closing
  {
    var ms := b.members + [m];
    assert AddMember(b, m) == b.(members := ms);
    assert b.(members := b.members) == b;
    CodeWithMembers(b, b.members, fcqnOf, varExport);
    CodeWithMembers(b, ms, fcqnOf, varExport);
    SingleMemberCode(m, b.id, FCQN(b), fcqnOf, varExport);
    MembersCodeAppend(b.members, [m], b.id, FCQN(b), fcqnOf, varExport);
    Splice(Prelude(b), MembersCode(b.members, b.id, FCQN(b), fcqnOf, varExport).value,
           MemberCode(m, b.id, FCQN(b), fcqnOf, varExport).value, Closing,
           Code(b, fcqnOf, varExport).value, Code(b.(members := ms), fcqnOf, varExport).value);
  }

  /** The code of `b` with its members replaced by `ms`: the same template around the code of
      `ms`. */
  lemma CodeWithMembers(b: Builder, ms: seq<Member>, fcqnOf: BuilderId -> string, varExport: Exporter)
    ensures var r := MembersCode(ms, b.id, FCQN(b), fcqnOf, varExport);
            Code(b.(members := ms), fcqnOf, varExport)
            == if r.Ok? then Ok(Prelude(b) + r.value + Closing) else Err(r.error)
  {
    FrameIgnoresMembers(b, ms);
    CodeShape(b.(members := ms), fcqnOf, varExport);
  }

  lemma Splice(prelude: string, members: string, added: string, closing: string, before: string, after: string)
    requires before == prelude + members + closing
    requires after == prelude + (members + added) + closing
    ensures |before| >= |closing|
    ensures after == before[..|before| - |closing|] + added + closing
  {
    DropSuffix(prelude + members, closing);
  }

  /** A builder without members emits only the template around an empty body. */
  lemma EmptyBuilderCode(b: Builder, fcqnOf: BuilderId -> string, varExport: Exporter)
    requires b.members == []
    ensures Code(b, fcqnOf, varExport) == Ok(Prelude(b) + Closing)
  {
  }

  /** A method added through the builder always renders: its back-reference is set. */
  lemma AddedMethodRenders(b: Builder, name: string, closure: Option<Closure>)
    ensures Renderable(AddMethod(b, name, closure).members[|b.members|])
  {
  }

  /** `setFinal(true)` puts exactly `final` in front of the header line. */
  lemma FinalInsertsOnlyItsKeyword(b: Builder)
    ensures HeaderLine(SetFinal(b, true)) == "final" + HeaderLine(SetFinal(b, false))
  {
  }

  /** The implements clause splits back, after `implements `, into the prefixed interfaces. */
  lemma ImplementsClauseSplitsBack(interfaces: seq<string>)
    requires |interfaces| > 0
    requires forall i :: 0 <= i < |interfaces| ==> ',' !in interfaces[i]
    ensures Explode(',', ImplementsClause(interfaces)[|"implements "|..]) == Prefixed(interfaces)
  {
    var ps := Prefixed(interfaces);
    forall i | 0 <= i < |ps|
      ensures ',' !in ps[i]
    {
      assert ps[i] == "\\" + interfaces[i];
    }
    ExplodeImplode(',', ps);
    assert ImplementsClause(interfaces)[|"implements "|..] == Implode(",", ps);
  }

  /** The namespace line of an accepted namespace is always a `namespace` statement. */
  lemma AcceptedNamespaceIsDeclared(b: Builder, namespace: string)
    requires !SetNamespace(b, namespace).Raised()
    ensures NamespaceLine(SetNamespace(b, namespace).state.namespace) == "namespace " + namespace + ";"
  {
    AcceptedNamespaceIsTruthy(namespace);
  }
}

=== FILE: class_member.dfy ===
/** `AbstractClassMember` and the state of its four kinds: property, constant, method and
    trait use. A member stores its name verbatim and a back-reference to the builder it was
    added through. */
module ClassMember {

  import opened Wrappers
  import opened Php
  import opened CommentTrait
  import AccessTrait

  /** The identity of a builder object; a member's back-reference holds one. */
  type BuilderId = nat

  /** A reflected type: its name as PHP prints it, whether it is built in, whether it admits
      null. */
  datatype TypeRef = TypeRef(name: string, builtin: bool, nullable: bool)

  /** A reflected closure parameter. */
  datatype Parameter = Parameter(
    name: string,
    byRef: bool,
    variadic: bool,
    paramType: Option<TypeRef>,
    defaultValue: Option<Value>)

  /** What reflection reports about the closure a method forwards to. */
  datatype Closure = Closure(parameters: seq<Parameter>, returnType: Option<TypeRef>)

  /** The `$traits` of a trait use: null until set, one trait name, or a list of them. */
  datatype Traits = NoTraits | OneTrait(traitName: string) | TraitList(traitNames: seq<string>)

  datatype Member =
    | Property(
        name: string,
        owner: Option<BuilderId>,
        comments: Comments,
        access: string,
        isStatic: bool,
        value: Value)
    | Constant(
        name: string,
        owner: Option<BuilderId>,
        access: string,
        value: Value)
    | Method(
        name: string,
        owner: Option<BuilderId>,
        comments: Comments,
        access: string,
        isAbstract: bool,
        isStatic: bool,
        closure: Option<Closure>,
        returnType: Option<string>)
    | TraitUse(
        name: string,
        owner: Option<BuilderId>,
        traits: Traits,
        definitions: seq<string>)

  /** The kinds that use `CommentTrait` */
  predicate HasComments(m: Member) {
    m.Property? || m.Method?
  }

  /** The kinds that use `AccessTrait` */
  predicate HasAccess(m: Member) {
    m.Property? || m.Constant? || m.Method?
  }

  /** The kinds that use `StaticTrait` */
  predicate HasStatic(m: Member) {
    m.Property? || m.Method?
  }

  /** The kinds that use `ValueTrait` */
  predicate HasValue(m: Member) {
    m.Property? || m.Constant?
  }

  // Constructors: the name is stored as given, with no check; every trait field starts at its
  // declared default and there is no builder yet.

  /** `new Property($name)`: a property mixes in the comment, access, static and value traits
      and has no builder yet. */
  function NewProperty(name: string): (r: Member)
    ensures r.Property? && r.name == name && End(r).Err?
    ensures HasComments(r) && HasAccess(r) && HasStatic(r) && HasValue(r)
  {
    Property(name, None, NoComments, AccessTrait.Public, false, Null)
  }

  /** `new Constant($name)`: a constant mixes in only the access and value traits and has no
      builder yet. */
  function NewConstant(name: string): (r: Member)
    ensures r.Constant? && r.name == name && End(r).Err?
    ensures HasAccess(r) && HasValue(r) && !HasComments(r) && !HasStatic(r)
  {
    Constant(name, None, AccessTrait.Public, Null)
  }

  /** `new Method($name)`: a method mixes in the comment, access, static and abstract traits, has
      no builder, no closure and no declared return type yet. */
  function NewMethod(name: string): (r: Member)
    ensures r.Method? && r.name == name && End(r).Err?
    ensures HasComments(r) && HasAccess(r) && HasStatic(r) && !HasValue(r)
    ensures r.closure.None? && r.returnType.None?
  {
    Method(name, None, NoComments, AccessTrait.Public, false, false, None, None)
  }

  /** `new TraitMember($name)`: a trait use mixes in none of the traits, and starts with its
      traits null and no definitions. */
  function NewTraitUse(name: string): (r: Member)
    ensures r.TraitUse? && r.name == name && End(r).Err?
    ensures !HasComments(r) && !HasAccess(r) && !HasStatic(r) && !HasValue(r)
    ensures r.traits == NoTraits && r.definitions == []
  {
    TraitUse(name, None, NoTraits, [])
  }

  /** `end()`: the builder of the last `setClassBuilder`; before any, the null return breaks the
      declared return type. */
  function End(m: Member): (r: Result<BuilderId>)
    ensures r.Ok? <==> m.owner.Some?
    ensures r.Ok? ==> m.owner == Some(r.value)
    ensures r.Err? ==> r.error == TypeError
  {
    match m.owner
    case None => Err(TypeError)
    case Some(b) => Ok(b)
  }

  /** `setClassBuilder`: after it, `end()` answers `builder`; the name and every other field are
      untouched. */
  function SetClassBuilder(m: Member, builder: BuilderId): (r: Member)
    ensures End(r) == Ok(builder)
    ensures r.name == m.name
    ensures r.(owner := m.owner) == m
  {
    m.(owner := Some(builder))
  }

  /** Every constructor stores the name it is given, whatever it is. */
  lemma ConstructorsStoreNameVerbatim(name: string)
    ensures NewProperty(name).name == name && NewConstant(name).name == name
    ensures NewMethod(name).name == name && NewTraitUse(name).name == name
  {
  }

  /** A fresh member has no builder: `end()` fails until `setClassBuilder` runs. */
  lemma FreshMemberHasNoBuilder(name: string)
    ensures End(NewProperty(name)).Err? && End(NewConstant(name)).Err?
    ensures End(NewMethod(name)).Err? && End(NewTraitUse(name)).Err?
  {
  }

  /** `end()` returns the builder most recently passed to `setClassBuilder`. */
  lemma EndReturnsLatestBuilder(m: Member, first: BuilderId, second: BuilderId)
    ensures End(SetClassBuilder(SetClassBuilder(m, first), second)) == Ok(second)
    ensures SetClassBuilder(SetClassBuilder(m, first), second) == SetClassBuilder(m, second)
  {
  }
}

=== FILE: comment_trait.dfy ===
/** `CommentTrait`: the doc comment and comment lines a class, a property or a method carries,
    and the comment block the emitters render from them. */
module CommentTrait {

  import opened Wrappers
  import opened Php

  /** `$comments` (a verbatim doc comment, null until set) and `$commentLines` */
  datatype Comments = Comments(doc: Option<string>, lines: seq<string>)

  /** The state before any setter ran: no doc comment, no lines. */
  const NoComments := Comments(None, [])

  /** `setDocComment`: replaces the doc comment; the comment lines stay as they are. */
  function SetDocComment(c: Comments, doc: string): (r: Comments)
    ensures r.doc == Some(doc) && r.lines == c.lines
  {
    c.(doc := Some(doc))
  }

  /** `addComment`: one more comment line, at the end. */
  function AddComment(c: Comments, line: string): (r: Comments)
    ensures r.lines == c.lines + [line] && r.doc == c.doc
  {
    c.(lines := c.lines + [line])
  }

  /** `addComments`: `addComment` for each argument in turn. */
  function AddComments(c: Comments, lines: seq<string>): (r: Comments)
    ensures r.lines == c.lines + lines
    ensures r.doc == c.doc
    decreases |lines|
  {
    if |lines| == 0 then c
    else
      var r := AddComments(AddComment(c, lines[0]), lines[1..]);
      assert c.lines + [lines[0]] + lines[1..] == c.lines + lines;
      r
  }

  /** The rendered comment lines: " * line\n" for each line, in order. */
  function LineItems(lines: seq<string>): string
    decreases |lines|
  {
    if |lines| == 0 then "" else " * " + lines[0] + "\n" + LineItems(lines[1..])
  }

  /** The comment block every emitter puts in front of its code: the doc comment verbatim when
      it is truthy, otherwise a block built from the comment lines. */
  function Block(c: Comments): (r: string)
    ensures Truthy(r)
    ensures TruthyOpt(c.doc) ==> r == c.doc.value
    ensures !TruthyOpt(c.doc) ==>
              && |r| == |LineItems(c.lines)| + 7
              && StartsWith(r, "/**\n") && EndsWith(r, " */")
              && r[4..|r| - 3] == LineItems(c.lines)
  {
    if TruthyOpt(c.doc) then c.doc.value
    else
      var items := LineItems(c.lines);
      Framed("/**\n", items, " */");
      assert ("/**\n" + items + " */")[4..|items| + 4] == items;
      "/**\n" + items + " */"
  }

  lemma {:induction false} LineItemsSnoc(lines: seq<string>, line: string)
    ensures LineItems(lines + [line]) == LineItems(lines) + (" * " + line + "\n")
    decreases |lines|
  {
    if |lines| == 0 {
      assert lines + [line] == [line];
      assert LineItems([line]) == " * " + line + "\n" + LineItems([]);
    } else {
      var rest := lines[1..];
      assert (lines + [line])[0] == lines[0];
      assert (lines + [line])[1..] == rest + [line];
      LineItemsSnoc(rest, line);
      Regroup(" * " + lines[0] + "\n", LineItems(rest), " * " + line + "\n");
    }
  }

  /** A truthy doc comment is emitted verbatim, whatever the lines. */
  lemma DocCommentWins(c: Comments, doc: string)
    requires Truthy(doc)
    ensures Block(SetDocComment(c, doc)) == doc
  {
  }

  /** A doc comment of "" or "0" is falsy: the block falls back to the comment lines. */
  lemma FalsyDocCommentFallsBack(c: Comments, doc: string)
    requires doc == "" || doc == "0"
    ensures Block(SetDocComment(c, doc)) == Block(c.(doc := None))
    ensures StartsWith(Block(SetDocComment(c, doc)), "/**\n")
  {
  }

  /** Without lines and without a doc comment the block is the empty doc block. */
  lemma EmptyBlock()
    ensures Block(NoComments) == "/**\n */"
  {
  }

  // Adding a comment line inserts exactly " * line\n" in front of the block's closing marker,
  // leaving every earlier line of the block where it was.
  lemma AddCommentExtendsBlock(c: Comments, line: string)
    requires !TruthyOpt(c.doc)
    ensures var before := Block(c);
            var after := Block(AddComment(c, line));
            |before| >= 3 && after == before[..|before| - 3] + (" * " + line + "\n") + " */"
  {
    var item := " * " + line + "\n";
    var opening := "/**\n" + LineItems(c.lines);
    LineItemsSnoc(c.lines, line);
    Regroup("/**\n", LineItems(c.lines), item);
    DropSuffix(opening, " */");
  }

  /** Adding lines one call at a time and in one call render the same block. */
  lemma {:induction false} AddCommentsRendersInOrder(c: Comments, lines: seq<string>)
    requires !TruthyOpt(c.doc)
    ensures Block(AddComments(c, lines)) == "/**\n" + LineItems(c.lines) + LineItems(lines) + " */"
    decreases |lines|
  {
    LineItemsAppend(c.lines, lines);
  }

  lemma {:induction false} LineItemsAppend(xs: seq<string>, ys: seq<string>)
    ensures LineItems(xs + ys) == LineItems(xs) + LineItems(ys)
    decreases |xs|
  {
    if |xs| == 0 {
      assert xs + ys == ys;
    } else {
      assert (xs + ys)[0] == xs[0];
      assert (xs + ys)[1..] == xs[1..] + ys;
      LineItemsAppend(xs[1..], ys);
      Regroup(" * " + xs[0] + "\n", LineItems(xs[1..]), LineItems(ys));
    }
  }
}

=== FILE: constants.dfy ===
/** `Constant::getCode`: `const NAME = <exported value>;` — no comment block and no visibility,
    whatever visibility was stored. */
module Constants {

  import opened Wrappers
  import opened Php
  import opened ClassMember
  import opened MemberTraits

  function ConstantCode(c: Member, varExport: Exporter): (code: string)
    requires c.Constant?
    ensures StartsWith(code, "const " + c.name + " = ")
    ensures EndsWith(code, " = " + varExport(c.value) + ";")
    ensures |code| == |"const " + c.name + " = "| + |varExport(c.value)| + 1
  {
    var head := "const " + c.name + " = ";
    var tail := varExport(c.value) + ";";
    var code := head + tail;
    assert code[..|head|] == head;
    assert code[|code| - |" = " + tail|..] == " = " + tail;
    code
  }

  /** Only the name and the value reach the code: the stored visibility and the builder do not,
      so `setAccess('private')` still yields a public constant. */
  lemma CodeIgnoresAccessAndBuilder(c: Member, d: Member, varExport: Exporter)
    requires c.Constant? && d.Constant?
    requires c.name == d.name && c.value == d.value
    ensures ConstantCode(c, varExport) == ConstantCode(d, varExport)
  {
  }

  /** Setting any accepted visibility leaves the code as it was. */
  lemma SetAccessDoesNotChangeCode(c: Member, access: string, varExport: Exporter)
    requires c.Constant?
    ensures ConstantCode(SetAccess(c, access).state, varExport) == ConstantCode(c, varExport)
  {
    CodeIgnoresAccessAndBuilder(c, SetAccess(c, access).state, varExport);
  }

  /** Without `setValue` the constant is declared with the export of null. */
  lemma UnsetValueExportsNull(name: string, varExport: Exporter)
    ensures ConstantCode(NewConstant(name), varExport) == "const " + name + " = " + varExport(Null) + ";"
  {
  }
}

=== FILE: helpers.dfy ===
/** The name check shared by class names and namespace fragments: the PCRE pattern
    `/^[a-zA-Z_\x7f-\xff][a-zA-Z0-9_\x7f-\xff]*$/` matched against a byte string.

    Each char of a string stands for one byte. The pattern has no `D` modifier, so its `$`
    matches at the end of the subject and also just before a single "\n" that ends it. */
module Helpers {

  predicate IsLetter(c: char) {
    'a' <= c <= 'z' || 'A' <= c <= 'Z'
  }

  predicate IsDigit(c: char) {
    '0' <= c <= '9'
  }

  /** The byte range `\x7f-\xff` */
  predicate IsHighByte(c: char) {
    0x7f <= c as int <= 0xff
  }

  /** `[a-zA-Z_\x7f-\xff]`: what a name may start with */
  predicate IsLeadByte(c: char) {
    IsLetter(c) || c == '_' || IsHighByte(c)
  }

  /** `[a-zA-Z0-9_\x7f-\xff]`: what may follow the first byte */
  predicate IsTailByte(c: char) {
    IsLeadByte(c) || IsDigit(c)
  }

  /** The whole string is one lead byte followed by tail bytes. */
  predicate IsIdentifier(s: string) {
    |s| > 0 && IsLeadByte(s[0]) && forall i :: 1 <= i < |s| ==> IsTailByte(s[i])
  }

  /** `Helpers::validNameForClassMember`: the pattern matches the string, either in full or up
      to one final "\n" that `$` lets through. */
  predicate ValidNameForClassMember(name: string) {
    IsIdentifier(name) || (|name| >= 2 && name[|name| - 1] == '\n' && IsIdentifier(name[..|name| - 1]))
  }

  /** The match as the regex engine performs it: one lead byte, then as many tail bytes as
      there are, then the end anchor. */
  method MatchName(name: string) returns (matched: bool)
    ensures matched <==> ValidNameForClassMember(name)
  {
    if |name| == 0 || !IsLeadByte(name[0]) {
      return false;
    }
    var i := 1;
    while i < |name| && IsTailByte(name[i])
      invariant 1 <= i <= |name|
      invariant forall j :: 1 <= j < i ==> IsTailByte(name[j])
    {
      i := i + 1;
    }
    if i == |name| {
      matched := true;
    } else if i == |name| - 1 && name[i] == '\n' {
      assert IsIdentifier(name[..i]);
      matched := true;
    } else {
      assert !IsTailByte(name[i]);
      matched := false;
    }
  }

  lemma EmptyNameIsInvalid()
    ensures !ValidNameForClassMember("")
  {
  }

  /** A name starting with a digit, such as `12Class` or `01`, is rejected. */
  lemma DigitLedNameIsInvalid(name: string)
    requires |name| > 0 && IsDigit(name[0])
    ensures !ValidNameForClassMember(name)
  {
  }

  /** A byte outside the tail class rejects the name wherever it stands, except for the one
      final "\n" the end anchor lets through. */
  lemma ForeignByteMakesNameInvalid(name: string, i: nat)
    requires i < |name| && !IsTailByte(name[i])
    requires !(i == |name| - 1 && name[i] == '\n')
    ensures !ValidNameForClassMember(name)
  {
    if |name| >= 2 && name[|name| - 1] == '\n' && i >= 1 {
      assert name[..|name| - 1][i] == name[i];
    }
  }

  /** In particular a space or a `$` anywhere makes a name invalid. */
  lemma SpaceOrDollarMakesNameInvalid(name: string, i: nat)
    requires i < |name| && (name[i] == ' ' || name[i] == '$')
    ensures !ValidNameForClassMember(name)
  {
    ForeignByteMakesNameInvalid(name, i);
  }

  /** Every non-empty prefix of a valid name is valid. */
  lemma PrefixOfValidNameIsValid(name: string, k: nat)
    requires ValidNameForClassMember(name)
    requires 0 < k <= |name|
    ensures ValidNameForClassMember(name[..k])
  {
    if !IsIdentifier(name) && k < |name| {
      var t := name[..|name| - 1];
      assert name[..k] == t[..k];
      assert forall i :: 1 <= i < k ==> name[..k][i] == t[i];
    }
  }

  /** Appending a tail byte to a valid name that does not end in the tolerated "\n" keeps it
      valid. */
  lemma AppendTailByteKeepsNameValid(name: string, c: char)
    requires ValidNameForClassMember(name) && name[|name| - 1] != '\n'
    requires IsTailByte(c)
    ensures ValidNameForClassMember(name + [c])
  {
    assert IsIdentifier(name);
    assert forall i :: 1 <= i < |name| ==> (name + [c])[i] == name[i];
  }

  /** The end anchor lets exactly one final "\n" through, and nothing may follow it. */
  lemma TrailingNewlineIsTolerated(name: string)
    requires IsIdentifier(name)
    ensures ValidNameForClassMember(name + "\n")
    ensures !ValidNameForClassMember(name + "\n\n")
    ensures !ValidNameForClassMember(name + "\n_")
  {
    assert (name + "\n")[..|name|] == name;
    ForeignByteMakesNameInvalid(name + "\n\n", |name|);
    ForeignByteMakesNameInvalid(name + "\n_", |name|);
  }

  /** A valid name holds no backslash and no comma, so it survives being joined on either. */
  lemma ValidNameHasNoSeparators(name: string)
    requires ValidNameForClassMember(name)
    ensures '\\' !in name && ',' !in name
  {
    if '\\' in name {
      var i :| 0 <= i < |name| && name[i] == '\\';
      ForeignByteMakesNameInvalid(name, i);
    }
    if ',' in name {
      var i :| 0 <= i < |name| && name[i] == ',';
      ForeignByteMakesNameInvalid(name, i);
    }
  }
}

=== FILE: member_list.dfy ===
/** The builder's ordered member list: `getProperty`/`getConstant`/`getMethod` return the first
    member of a kind with a name, `removeProperty`/`removeConstant`/`removeMethod` drop every
    such member. */
module MemberList {

  import opened Wrappers
  import opened ClassMember
  import opened Seqs

  /** The kinds the getters and removers look for; a trait use is never looked up. */
  datatype Kind = PropertyKind | ConstantKind | MethodKind

  /** `$member instanceof <Kind> && $member->getName() === $name` */
  predicate Matches(m: Member, kind: Kind, name: string) {
    m.name == name &&
    match kind
    case PropertyKind => m.Property?
    case ConstantKind => m.Constant?
    case MethodKind => m.Method?
  }

  /** `get<Kind>($name)`: the first member of that kind with that name, or null. */
  function Find(ms: seq<Member>, kind: Kind, name: string): (r: Option<Member>)
    ensures r.None? <==> forall i :: 0 <= i < |ms| ==> !Matches(ms[i], kind, name)
    ensures r.Some? ==> Matches(r.value, kind, name)
    ensures r.Some? ==> exists i :: 0 <= i < |ms| && ms[i] == r.value
                                    && forall j :: 0 <= j < i ==> !Matches(ms[j], kind, name)
  {
    match FirstIndex(ms, m => Matches(m, kind, name))
    case None => None
    case Some(i) => Some(ms[i])
  }

  /** `remove<Kind>($name)`: every member of that kind with that name is dropped; the others
      stay, in their order. */
  function Remove(ms: seq<Member>, kind: Kind, name: string): (r: seq<Member>)
    ensures forall i :: 0 <= i < |r| ==> !Matches(r[i], kind, name)
    ensures forall m :: !Matches(m, kind, name) ==> multiset(r)[m] == multiset(ms)[m]
  {
    Filter(ms, m => !Matches(m, kind, name))
  }

  /** A member matches at most one (kind, name) pair. */
  lemma MatchIsUnique(m: Member, k1: Kind, n1: string, k2: Kind, n2: string)
    requires Matches(m, k1, n1) && Matches(m, k2, n2)
    ensures k1 == k2 && n1 == n2
  {
  }

  /** Looking up in a list with one more member in front. */
  lemma FindCons(m: Member, ms: seq<Member>, kind: Kind, name: string)
    ensures Find([m] + ms, kind, name) == if Matches(m, kind, name) then Some(m) else Find(ms, kind, name)
  {
    var xs := [m] + ms;
    assert forall i :: 1 <= i < |xs| ==> xs[i] == ms[i - 1];
    var r := Find(xs, kind, name);
    if !Matches(m, kind, name) {
      var s := Find(ms, kind, name);
      if r.Some? {
        var i :| 0 <= i < |xs| && xs[i] == r.value && forall j :: 0 <= j < i ==> !Matches(xs[j], kind, name);
        assert i >= 1;
        assert !s.None? by {
          assert Matches(ms[i - 1], kind, name);
        }
        var i' :| 0 <= i' < |ms| && ms[i'] == s.value && forall j :: 0 <= j < i' ==> !Matches(ms[j], kind, name);
        assert xs[i' + 1] == ms[i'];
        assert i == i' + 1;
      } else {
        assert forall i :: 1 <= i < |xs| ==> !Matches(xs[i], kind, name);
      }
    }
  }

  /** Adding a member at the end never hides an earlier match: the lookup finds the earlier
      member if there is one, and otherwise the new member when it matches. */
  lemma {:induction false} FindAfterAppend(ms: seq<Member>, m: Member, kind: Kind, name: string)
    ensures Find(ms + [m], kind, name)
            == if Find(ms, kind, name).Some? then Find(ms, kind, name)
               else if Matches(m, kind, name) then Some(m) else None
    decreases |ms|
  {
    if |ms| == 0 {
      assert [m] + [] == [m];
      FindCons(m, [], kind, name);
    } else {
      assert ms + [m] == [ms[0]] + (ms[1..] + [m]);
      assert ms == [ms[0]] + ms[1..];
      FindCons(ms[0], ms[1..] + [m], kind, name);
      FindCons(ms[0], ms[1..], kind, name);
      FindAfterAppend(ms[1..], m, kind, name);
    }
  }

  /** Removing splits over concatenation, so the surviving members keep their relative order. */
  lemma RemoveAppend(xs: seq<Member>, ys: seq<Member>, kind: Kind, name: string)
    ensures Remove(xs + ys, kind, name) == Remove(xs, kind, name) + Remove(ys, kind, name)
  {
    FilterAppend(xs, ys, m => !Matches(m, kind, name));
  }

  /** Removing twice is removing once. */
  lemma RemoveIsIdempotent(ms: seq<Member>, kind: Kind, name: string)
    ensures Remove(Remove(ms, kind, name), kind, name) == Remove(ms, kind, name)
  {
    FilterKeepsAll(Remove(ms, kind, name), m => !Matches(m, kind, name));
  }

  /** After a removal the removed (kind, name) is gone, and every other lookup answers as
      before. */
  lemma {:induction false} FindAfterRemove(ms: seq<Member>, kind: Kind, name: string, kind': Kind, name': string)
    ensures Find(Remove(ms, kind, name), kind, name).None?
    ensures kind != kind' || name != name' ==>
              Find(Remove(ms, kind, name), kind', name') == Find(ms, kind', name')
    decreases |ms|
  {
    if |ms| > 0 && (kind != kind' || name != name') {
      var x := ms[0];
      var rest := ms[1..];
      assert ms == [x] + rest;
      RemoveAppend([x], rest, kind, name);
      FindAfterRemove(rest, kind, name, kind', name');
      FindCons(x, rest, kind', name');
      assert Remove([x], kind, name) == if Matches(x, kind, name) then [] else [x];
      if Matches(x, kind, name) {
        if Matches(x, kind', name') {
          MatchIsUnique(x, kind, name, kind', name');
        }
        assert Remove(ms, kind, name) == Remove(rest, kind, name);
      } else {
        assert Remove(ms, kind, name) == [x] + Remove(rest, kind, name);
        FindCons(x, Remove(rest, kind, name), kind', name');
      }
    }
  }
}

=== FILE: member_traits.dfy ===
/** The setters the member kinds mix in from `StaticTrait`, `AbstractTrait`, `ValueTrait` and
    `AccessTrait`. A setter is only available on the kinds that use its trait. */
module MemberTraits {

  import opened Wrappers
  import opened Php
  import opened ClassMember
  import AccessTrait

  /** `setStatic`: the flag becomes `flag`; nothing else changes. */
  function SetStatic(m: Member, flag: bool): (r: Member)
    requires HasStatic(m)
    ensures HasStatic(r) && r.isStatic == flag
    ensures r.(isStatic := m.isStatic) == m
  {
    m.(isStatic := flag)
  }

  /** `setAbstract` on a method: the flag becomes `flag`; nothing else changes. */
  function SetAbstract(m: Member, flag: bool): (r: Member)
    requires m.Method?
    ensures r.Method? && r.isAbstract == flag
    ensures r.(isAbstract := m.isAbstract) == m
  {
    m.(isAbstract := flag)
  }

  /** `setValue` (`setDefaultValue` on a property): stores the value unchanged; nothing else
      changes. */
  function SetValue(m: Member, v: Value): (r: Member)
    requires HasValue(m)
    ensures HasValue(r) && r.value == v
    ensures r.(value := m.value) == m
  {
    m.(value := v)
  }

  /** `setAccess` on a member: an accepted visibility is stored, anything else raises
      InvalidAccess and leaves the member as it was. */
  function SetAccess(m: Member, access: string): (r: Effect<Member>)
    requires HasAccess(m)
    ensures HasAccess(r.state)
    ensures !r.Raised() <==> AccessTrait.ValidAccess(access)
    ensures !r.Raised() ==> r.state.access == access && r.state.(access := m.access) == m
    ensures r.Raised() ==> r.state == m && r.raised == Some(InvalidAccess(access))
  {
    var e := AccessTrait.SetAccess(m.access, access);
    Effect(m.(access := e.state), e.raised)
  }

  /** `StaticTrait` declares the flag false: no member starts static. */
  lemma StaticDefault(name: string)
    ensures !NewProperty(name).isStatic && !NewMethod(name).isStatic
  {
  }

  /** `AbstractTrait` declares the flag false: no method starts abstract. */
  lemma AbstractDefault(name: string)
    ensures !NewMethod(name).isAbstract
  {
  }

  /** `ValueTrait` declares the value without a default: it starts null. */
  lemma ValueDefault(name: string)
    ensures NewProperty(name).value == Null && NewConstant(name).value == Null
  {
  }

  /** `AccessTrait` declares the visibility `public`, an accepted one. */
  lemma AccessDefault(name: string)
    ensures NewProperty(name).access == AccessTrait.Public
    ensures NewConstant(name).access == AccessTrait.Public
    ensures NewMethod(name).access == AccessTrait.Public
    ensures AccessTrait.ValidAccess(NewMethod(name).access)
  {
  }

  /** Repeating `setStatic`/`setAbstract`/`setValue` with the same argument changes nothing more,
      and of two calls the last one wins. */
  lemma SettersAreIdempotentLastWins(m: Member, a: bool, b: bool, u: Value, v: Value)
    ensures HasStatic(m) ==> SetStatic(SetStatic(m, a), b) == SetStatic(m, b)
    ensures HasStatic(m) ==> SetStatic(SetStatic(m, b), b) == SetStatic(m, b)
    ensures m.Method? ==> SetAbstract(SetAbstract(m, a), b) == SetAbstract(m, b)
    ensures m.Method? ==> SetAbstract(SetAbstract(m, b), b) == SetAbstract(m, b)
    ensures HasValue(m) ==> SetValue(SetValue(m, u), v) == SetValue(m, v)
    ensures HasValue(m) ==> SetValue(SetValue(m, v), v) == SetValue(m, v)
  {
  }

  /** A rejected visibility never changes the member, and setting the same accepted one twice
      is setting it once. */
  lemma SetAccessIdempotent(m: Member, access: string)
    requires HasAccess(m)
    ensures SetAccess(SetAccess(m, access).state, access) == SetAccess(m, access)
  {
  }
}

=== FILE: methods.dfy ===
/** `Method`: its closure and return type, and `Method::getCode`, which declares a method whose
    body looks the closure up in the builder registry and forwards every argument to it.

    Reflection of the closure is replaced by the `Closure` record: its parameters and its
    return type. A reflected type's name is taken as the bare type name. */
module Methods {

  import opened Wrappers
  import opened Php
  import opened CommentTrait
  import opened ClassMember

  /** `setClosure` */
  function SetClosure(m: Member, c: Closure): (r: Member)
    requires m.Method?
    ensures r.Method? && r.closure == Some(c)
    ensures r.(closure := m.closure) == m
  {
    m.(closure := Some(c))
  }

  /** `setReturnType`: stores the (nullable) type text as given. */
  function SetReturnType(m: Member, returnType: Option<string>): (r: Member)
    requires m.Method?
    ensures r.Method? && GetReturnType(r) == returnType
    ensures r.(returnType := m.returnType) == m
  {
    m.(returnType := returnType)
  }

  /** `getReturnType` */
  function GetReturnType(m: Member): Option<string>
    requires m.Method?
  {
    m.returnType
  }

  /** The parameters the declaration lists: the closure's, or none without a closure. */
  function Parameters(m: Member): seq<Parameter>
    requires m.Method?
  {
    if m.closure.Some? then m.closure.value.parameters else []
  }

  /** `": T"` for a truthy explicit return type, "" otherwise */
  function ExplicitReturnType(m: Member): string
    requires m.Method?
  {
    if TruthyOpt(m.returnType) then ": " + m.returnType.value else ""
  }

  /** The closure's return type as the emitter consults it: only when no explicit return type
      was rendered, and only when there is a closure. */
  function ReflectedReturnType(m: Member): Option<TypeRef>
    requires m.Method?
  {
    if ExplicitReturnType(m) == "" && m.closure.Some? then m.closure.value.returnType else None
  }

  /** A reflected return type: a class name other than `self` is made absolute with `\`, and a
      nullable type gets `?`. */
  function ReflectedReturnTypeText(t: TypeRef): (r: string)
    ensures StartsWith(r, ": ")
  {
    var qualified := if !t.builtin && t.name != "self" then "\\" + t.name else t.name;
    StartsWithPrefix(": ", "?" + qualified);
    StartsWithPrefix(": ", qualified);
    assert ": ?" + qualified == ": " + ("?" + qualified);
    if t.nullable then ": ?" + qualified else ": " + qualified
  }

  /** The return type part of the signature: `: T` for the explicit type when it is truthy,
      otherwise the reflected one, and nothing when there is neither. */
  function ReturnTypeCode(m: Member): (r: string)
    requires m.Method?
    ensures r == "" <==> !TruthyOpt(m.returnType) && ReflectedReturnType(m).None?
    ensures r != "" ==> StartsWith(r, ": ")
    ensures TruthyOpt(m.returnType) ==> r == ": " + m.returnType.value
  {
    match ReflectedReturnType(m)
    case Some(t) => ReflectedReturnTypeText(t)
    case None => ExplicitReturnType(m)
  }

  /** A parameter's type: `?` when nullable, then `\` in front of a class name, then the name. */
  function TypeText(t: TypeRef): (r: string)
    ensures |r| == (if t.nullable then 1 else 0) + (if !t.builtin then 1 else 0) + |t.name|
    ensures t.nullable ==> StartsWith(r, "?")
    ensures !t.builtin ==> HasAt(r, if t.nullable then 1 else 0, "\\")
    ensures EndsWith(r, t.name)
  {
    var q := if t.nullable then "?" else "";
    var slash := if !t.builtin then "\\" else "";
    StartsWithPrefix(q, slash + t.name);
    HasAtMiddle(q, slash, t.name);
    EndsWithSuffix(q + slash, t.name);
    assert q + (slash + t.name) == q + slash + t.name;
    q + slash + t.name
  }

  /** The type and a space for a typed parameter, nothing for an untyped one. */
  function TypePart(p: Parameter): string {
    if p.paramType.Some? then TypeText(p.paramType.value) + " " else ""
  }

  /** What stands before `$name` in a rendered parameter: the type and a space, then `...` for a
      variadic parameter, then `&` for one passed by reference. */
  function ParameterPrefix(p: Parameter): (r: string)
    ensures StartsWith(r, TypePart(p))
    ensures |r| == |TypePart(p)| + (if p.variadic then 3 else 0) + (if p.byRef then 1 else 0)
    ensures p.variadic ==> HasAt(r, |TypePart(p)|, "...")
    ensures EndsWith(r, "&") <==> p.byRef
  {
    var typed := TypePart(p);
    var dots := if p.variadic then "..." else "";
    var amp := if p.byRef then "&" else "";
    var r := typed + dots + amp;
    assert r == typed + (dots + amp);
    StartsWithPrefix(typed, dots + amp);
    HasAtMiddle(typed, dots, amp);
    EndsWithSuffix(typed + dots, amp);
    assert !p.byRef ==> r == typed + dots;
    assert !p.byRef && |r| > 0 ==> r[|r| - 1] == (if p.variadic then '.' else ' ');
    r
  }

  /** What follows `$name`: ` = <exported default>` when there is a default. */
  function ParameterSuffix(p: Parameter, varExport: Exporter): string {
    if p.defaultValue.Some? then " = " + varExport(p.defaultValue.value) else ""
  }

  /** One parameter: `[?][\]Type [...][&]$name[ = default]`. */
  function ParameterCode(p: Parameter, varExport: Exporter): (code: string)
    ensures StartsWith(code, ParameterPrefix(p))
    ensures p.paramType.Some? ==> StartsWith(code, TypeText(p.paramType.value) + " ")
    ensures HasAt(code, |ParameterPrefix(p)|, "$" + p.name)
    ensures p.defaultValue.Some? ==> EndsWith(code, " = " + varExport(p.defaultValue.value))
    ensures p.defaultValue.None? ==> EndsWith(code, "$" + p.name)
    ensures p.defaultValue.Some? ==>
              |code| == |ParameterPrefix(p)| + 1 + |p.name| + 3 + |varExport(p.defaultValue.value)|
    ensures p.defaultValue.None? ==> |code| == |ParameterPrefix(p)| + 1 + |p.name|
    ensures p.paramType.None? && !p.variadic && !p.byRef && p.defaultValue.None? ==> code == "$" + p.name
  {
    var prefix := ParameterPrefix(p);
    var suffix := ParameterSuffix(p, varExport);
    PrefixLeads(p, prefix, "$" + p.name, suffix);
    HasAtMiddle(prefix, "$" + p.name, suffix);
    EndsWithSuffix(prefix + ("$" + p.name), suffix);
    assert suffix == "" ==> prefix + ("$" + p.name) + suffix == prefix + ("$" + p.name);
    EndsWithSuffix(prefix, "$" + p.name);
    prefix + ("$" + p.name) + suffix
  }

  lemma PrefixLeads(p: Parameter, prefix: string, name: string, suffix: string)
    requires prefix == ParameterPrefix(p)
    ensures StartsWith(prefix + name + suffix, prefix)
    ensures p.paramType.Some? ==> StartsWith(prefix + name + suffix, TypeText(p.paramType.value) + " ")
  {
    var code := prefix + name + suffix;
    assert code[..|prefix|] == prefix;
    assert code[..|TypePart(p)|] == prefix[..|TypePart(p)|];
  }

  /** Each parameter rendered, in declaration order. */
  function ParameterCodes(ps: seq<Parameter>, varExport: Exporter): (codes: seq<string>)
    ensures |codes| == |ps|
  {
    seq(|ps|, i requires 0 <= i < |ps| => ParameterCode(ps[i], varExport))
  }

  /** The parameter list: each parameter rendered, joined with `,` in declaration order. It is
      empty exactly without parameters, starts with the first one's code, and splits back on `,`
      into the parameters' codes when none of them holds a comma (a default may). */
  function ParametersCode(ps: seq<Parameter>, varExport: Exporter): (r: string)
    ensures r == "" <==> |ps| == 0
    ensures |ps| > 0 ==> StartsWith(r, ParameterCode(ps[0], varExport))
    ensures |ps| > 0 && (forall i :: 0 <= i < |ps| ==> ',' !in ParameterCode(ps[i], varExport))
            ==> Explode(',', r) == ParameterCodes(ps, varExport)
  {
    var codes := ParameterCodes(ps, varExport);
    if |ps| == 0 then Implode(",", codes)
    else
      ImplodeStartsWithFirst(",", codes);
      assert codes[0] == ParameterCode(ps[0], varExport);
      assert HasAt(codes[0], |ParameterPrefix(ps[0])|, "$" + ps[0].name);
      SplitsBackWithoutCommas(ps, varExport);
      Implode(",", codes)
  }

  lemma SplitsBackWithoutCommas(ps: seq<Parameter>, varExport: Exporter)
    requires |ps| > 0
    ensures (forall i :: 0 <= i < |ps| ==> ',' !in ParameterCode(ps[i], varExport))
            ==> Explode(',', Implode(",", ParameterCodes(ps, varExport))) == ParameterCodes(ps, varExport)
  {
    var codes := ParameterCodes(ps, varExport);
    if forall i :: 0 <= i < |ps| ==> ',' !in ParameterCode(ps[i], varExport) {
      forall i | 0 <= i < |codes|
        ensures ',' !in codes[i]
      {
        assert codes[i] == ParameterCode(ps[i], varExport);
      }
      ExplodeImplode(',', codes);
    }
  }

  /** The forwarded arguments: `$name` for each parameter, joined with `,`. */
  function ForwardedArguments(ps: seq<Parameter>): string {
    Implode(",", seq(|ps|, i requires 0 <= i < |ps| => "$" + ps[i].name))
  }

  /** The argument tail of the forwarding call: a leading `,` only when there are arguments. */
  function CallTail(ps: seq<Parameter>): string {
    var args := ForwardedArguments(ps);
    if Truthy(args) then "," + args else args
  }

  /** Whether the forwarding body says `return`: only a reflected `void` suppresses it. */
  predicate EmitsReturn(m: Member)
    requires m.Method?
  {
    !(ReflectedReturnType(m).Some? && ReflectedReturnType(m).value.name == "void")
  }

  /** The statement that fetches the closure back from the registry through the owner's FCQN. */
  function ClosureLookup(fcqn: string, name: string): string {
    "$closure = \\ThenLabs\\ClassBuilder\\ClassBuilder::getInstalledInstances()['" + fcqn
    + "']->getMethod('" + name + "')->getClosure();\n"
  }

  /** How the forwarding call starts: a static method calls the closure with `call_user_func`,
      any other binds it to `$this`. */
  function CallHead(m: Member): string
    requires m.Method?
  {
    if m.isStatic then " call_user_func($closure " else " $closure->call($this "
  }

  /** The line break before the closing brace, indented to the body's depth. */
  function CallBreak(m: Member): string
    requires m.Method?
  {
    if m.isStatic then Break16 else Break12
  }

  /** The forwarding call after the optional `return`, with the closing brace. */
  function CallRest(m: Member): (r: string)
    requires m.Method?
    ensures |r| > 0 && r[0] == ' ' && r[|r| - 1] == '}'
  {
    LastOfAppend(CallHead(m) + CallTail(Parameters(m)) + ");" + CallBreak(m), "}");
    CallHead(m) + CallTail(Parameters(m)) + ");" + CallBreak(m) + "}"
  }

  /** The forwarding call and its closing brace: `return` exactly when the method returns
      something, then the call head, the forwarded arguments, `);`, a break and `}`, with
      nothing else. */
  function ForwardingCall(m: Member): (r: string)
    requires m.Method?
    ensures StartsWith(r, "return") <==> EmitsReturn(m)
    ensures |r| > 0 && r[|r| - 1] == '}'
    ensures HasAt(r, |Keyword(EmitsReturn(m), "return")|, CallHead(m))
    ensures EndsWith(r, CallTail(Parameters(m)) + ");" + CallBreak(m) + "}")
    ensures |r| == |Keyword(EmitsReturn(m), "return")| + |CallHead(m)| + |CallTail(Parameters(m))|
                   + |");"| + |CallBreak(m)| + 1
  {
    ReturnLead(EmitsReturn(m), CallRest(m));
    LastOfAppend(Keyword(EmitsReturn(m), "return"), CallRest(m));
    CallLayout(Keyword(EmitsReturn(m), "return"), CallHead(m), CallTail(Parameters(m)), CallBreak(m),
               Keyword(EmitsReturn(m), "return") + CallRest(m));
    Keyword(EmitsReturn(m), "return") + CallRest(m)
  }

  lemma CallLayout(lead: string, head: string, args: string, gap: string, r: string)
    requires r == lead + (head + args + ");" + gap + "}")
    ensures HasAt(r, |lead|, head)
    ensures EndsWith(r, args + ");" + gap + "}")
    ensures |r| == |lead| + |head| + |args| + |");"| + |gap| + 1
  {
    assert r == lead + head + (args + ");" + gap + "}");
    HasAtMiddle(lead, head, args + ");" + gap + "}");
    EndsWithSuffix(lead + head, args + ");" + gap + "}");
  }

  lemma ReturnLead(emits: bool, rest: string)
    requires |rest| > 0 && rest[0] == ' '
    ensures StartsWith(Keyword(emits, "return") + rest, "return") <==> emits
  {
    if emits {
      StartsWithPrefix("return", rest);
    } else {
      assert (Keyword(emits, "return") + rest)[0] == ' ';
    }
  }

  /** The line break after the opening brace and after the lookup, indented one step deeper
      for a static method. */
  function LookupBreak(m: Member): string
    requires m.Method?
  {
    if m.isStatic then Break20 else Break16
  }

  /** For a static method, the rebinding of the closure to the class; nothing otherwise. */
  function Rebind(m: Member): string
    requires m.Method?
  {
    if m.isStatic then "$closure = \\Closure::bind($closure, null, self::class);\n" else ""
  }

  /** The opening of a forwarding body: the brace, the closure lookup, and for a static method
      the rebinding of the closure to the class. */
  function BodyOpening(m: Member, fcqn: string): string
    requires m.Method?
  {
    "{" + LookupBreak(m) + ClosureLookup(fcqn, m.name) + Rebind(m) + LookupBreak(m)
  }

  /** Where the rebinding goes in a forwarding body: after the brace, the break and the lookup. */
  function RebindSlot(m: Member, fcqn: string): nat
    requires m.Method?
  {
    |"{" + LookupBreak(m)| + |ClosureLookup(fcqn, m.name)|
  }

  /** The method body: `;` for an abstract method, otherwise a block that looks the closure up
      by the owner's FCQN and the method's name, rebinds it when static, and forwards to it. */
  function Body(m: Member, fcqn: string): (r: string)
    requires m.Method?
    ensures m.isAbstract ==> r == ";"
    ensures !m.isAbstract ==> |r| > 0 && r[|r| - 1] == '}' && EndsWith(r, ForwardingCall(m))
    ensures !m.isAbstract ==> StartsWith(r, "{" + LookupBreak(m))
    ensures !m.isAbstract ==> HasAt(r, |"{" + LookupBreak(m)|, ClosureLookup(fcqn, m.name))
    ensures !m.isAbstract ==> HasAt(r, RebindSlot(m, fcqn), Rebind(m) + LookupBreak(m))
    ensures !m.isAbstract ==>
              |r| == |"{" + LookupBreak(m)| + |ClosureLookup(fcqn, m.name)| + |Rebind(m) + LookupBreak(m)|
                     + |ForwardingCall(m)|
  {
    if m.isAbstract then ";"
    else
      LastOfAppend(BodyOpening(m, fcqn), ForwardingCall(m));
      EndsWithSuffix(BodyOpening(m, fcqn), ForwardingCall(m));
      BodyLayout(LookupBreak(m), ClosureLookup(fcqn, m.name), Rebind(m), ForwardingCall(m),
                 BodyOpening(m, fcqn) + ForwardingCall(m), RebindSlot(m, fcqn));
      BodyOpening(m, fcqn) + ForwardingCall(m)
  }

  lemma BodyLayout(gap: string, lookup: string, rebind: string, call: string, r: string, at: nat)
    requires r == "{" + gap + lookup + rebind + gap + call
    requires at == |"{" + gap| + |lookup|
    ensures StartsWith(r, "{" + gap)
    ensures HasAt(r, |"{" + gap|, lookup)
    ensures HasAt(r, at, rebind + gap)
    ensures |r| == |"{" + gap| + |lookup| + |rebind + gap| + |call|
  {
    assert r == ("{" + gap) + (lookup + (rebind + gap) + call);
    StartsWithPrefix("{" + gap, lookup + (rebind + gap) + call);
    assert r == ("{" + gap) + lookup + ((rebind + gap) + call);
    HasAtMiddle("{" + gap, lookup, (rebind + gap) + call);
    assert r == ("{" + gap + lookup) + (rebind + gap) + call;
    HasAtMiddle("{" + gap + lookup, rebind + gap, call);
  }

  /** The signature line after the `abstract` keyword: visibility, `static`,
      `function name(params) : T`. */
  function SignatureRest(m: Member, varExport: Exporter): string
    requires m.Method?
  {
    Signature(m.access, m.isStatic, m.name, ParametersCode(Parameters(m), varExport), ReturnTypeCode(m))
  }

  /** The signature template with its pieces filled in. It starts with a space, and each
      piece sits where the lengths of the pieces before it put it. */
  function Signature(access: string, isStatic: bool, name: string, params: string, ret: string): (r: string)
    ensures |r| > 0 && r[0] == ' '
    ensures HasAt(r, 1, access)
    ensures HasAt(r, |access| + 2, "static") <==> isStatic
    ensures HasAt(r, |access| + |Keyword(isStatic, "static")| + 2, " function ")
    ensures HasAt(r, |access| + |Keyword(isStatic, "static")| + 12, name)
    ensures HasAt(r, |access| + |Keyword(isStatic, "static")| + |name| + 12, "(")
    ensures HasAt(r, |access| + |Keyword(isStatic, "static")| + |name| + 13, params)
    ensures EndsWith(r, ") " + ret)
  {
    SignatureAccess(access, Keyword(isStatic, "static"), name, params, ret);
    SignatureStatic(access, isStatic, name, params, ret, |access| + 2);
    SignatureFunction(access, Keyword(isStatic, "static"), name, params, ret, |access| + |Keyword(isStatic, "static")| + 2);
    SignatureName(access, Keyword(isStatic, "static"), name, params, ret, |access| + |Keyword(isStatic, "static")| + 12);
    SignatureParen(access, Keyword(isStatic, "static"), name, params, ret,
                   |access| + |Keyword(isStatic, "static")| + |name| + 12);
    SignatureParameters(access, Keyword(isStatic, "static"), name, params, ret,
                        |access| + |Keyword(isStatic, "static")| + |name| + 13);
    SignatureEnd(access, Keyword(isStatic, "static"), name, params, ret);
    Template(access, Keyword(isStatic, "static"), name, params, ret)
  }

  function Template(access: string, modifier: string, name: string, params: string, ret: string): string {
    " " + access + " " + modifier + " function " + name + "(" + params + ") " + ret
  }

  lemma SignatureAccess(access: string, modifier: string, name: string, params: string, ret: string)
    ensures var r := Template(access, modifier, name, params, ret);
            |r| > 0 && r[0] == ' ' && HasAt(r, 1, access)
  {
    var p2 := " " + access + " ";
    var p4 := p2 + modifier + " function ";
    var p6 := p4 + name + "(";
    var p8 := p6 + params + ") ";
    HasAtEnd(" ", access);
    HasAtExtend(" " + access, " ", 1, access);
    HasAtExtend(p2, modifier, 1, access);
    HasAtExtend(p2 + modifier, " function ", 1, access);
    HasAtExtend(p4, name, 1, access);
    HasAtExtend(p4 + name, "(", 1, access);
    HasAtExtend(p6, params, 1, access);
    HasAtExtend(p6 + params, ") ", 1, access);
    HasAtExtend(p8, ret, 1, access);
  }

  lemma SignatureStatic(access: string, isStatic: bool, name: string, params: string, ret: string, at: nat)
    requires at == |access| + 2
    ensures HasAt(Template(access, Keyword(isStatic, "static"), name, params, ret), at, "static") <==> isStatic
  {
    var modifier := Keyword(isStatic, "static");
    var p2 := " " + access + " ";
    var p4 := p2 + modifier + " function ";
    var p6 := p4 + name + "(";
    var p8 := p6 + params + ") ";
    var r := p8 + ret;
    if isStatic {
      HasAtEnd(p2, "static");
      HasAtExtend(p2 + modifier, " function ", at, "static");
      HasAtExtend(p4, name, at, "static");
      HasAtExtend(p4 + name, "(", at, "static");
      HasAtExtend(p6, params, at, "static");
      HasAtExtend(p6 + params, ") ", at, "static");
      HasAtExtend(p8, ret, at, "static");
    } else {
      assert r[at] == p4[at] == ' ';
    }
  }

  lemma SignatureFunction(access: string, modifier: string, name: string, params: string, ret: string, at: nat)
    requires at == |access| + |modifier| + 2
    ensures HasAt(Template(access, modifier, name, params, ret), at, " function ")
  {
    var p3 := " " + access + " " + modifier;
    var p4 := p3 + " function ";
    var p6 := p4 + name + "(";
    var p8 := p6 + params + ") ";
    HasAtEnd(p3, " function ");
    HasAtExtend(p4, name, at, " function ");
    HasAtExtend(p4 + name, "(", at, " function ");
    HasAtExtend(p6, params, at, " function ");
    HasAtExtend(p6 + params, ") ", at, " function ");
    HasAtExtend(p8, ret, at, " function ");
  }

  lemma SignatureParen(access: string, modifier: string, name: string, params: string, ret: string, at: nat)
    requires at == |access| + |modifier| + |name| + 12
    ensures HasAt(Template(access, modifier, name, params, ret), at, "(")
  {
    var p5 := " " + access + " " + modifier + " function " + name;
    var p6 := p5 + "(";
    var p8 := p6 + params + ") ";
    HasAtEnd(p5, "(");
    HasAtExtend(p6, params, at, "(");
    HasAtExtend(p6 + params, ") ", at, "(");
    HasAtExtend(p8, ret, at, "(");
  }

  lemma SignatureName(access: string, modifier: string, name: string, params: string, ret: string, at: nat)
    requires at == |access| + |modifier| + 12
    ensures HasAt(Template(access, modifier, name, params, ret), at, name)
  {
    var p4 := " " + access + " " + modifier + " function ";
    var p6 := p4 + name + "(";
    var p8 := p6 + params + ") ";
    HasAtEnd(p4, name);
    HasAtExtend(p4 + name, "(", at, name);
    HasAtExtend(p6, params, at, name);
    HasAtExtend(p6 + params, ") ", at, name);
    HasAtExtend(p8, ret, at, name);
  }

  lemma SignatureParameters(access: string, modifier: string, name: string, params: string, ret: string, at: nat)
    requires at == |access| + |modifier| + |name| + 13
    ensures HasAt(Template(access, modifier, name, params, ret), at, params)
  {
    var p6 := " " + access + " " + modifier + " function " + name + "(";
    var p8 := p6 + params + ") ";
    HasAtEnd(p6, params);
    HasAtExtend(p6 + params, ") ", at, params);
    HasAtExtend(p8, ret, at, params);
  }

  lemma SignatureEnd(access: string, modifier: string, name: string, params: string, ret: string)
    ensures EndsWith(Template(access, modifier, name, params, ret), ") " + ret)
  {
    var p7 := " " + access + " " + modifier + " function " + name + "(" + params;
    Regroup(p7, ") ", ret);
    EndsWithSuffix(p7, ") " + ret);
  }

  /** Where `abstract` goes: after the leading break, the comment block and a second break. */
  function AbstractSlot(m: Member): nat
    requires m.Method?
  {
    |Break12| + |Block(m.comments)| + |Break12|
  }
  /** Where the signature rest starts: right after `abstract`, or after nothing. */
  function SignatureSlot(m: Member): nat
    requires m.Method?
  {
    AbstractSlot(m) + |Keyword(m.isAbstract, "abstract")|
  }

  /** Where `static` goes: after the space, the visibility and another space. */
  function StaticSlot(m: Member): nat
    requires m.Method?
  {
    SignatureSlot(m) + |m.access| + 2
  }

  /** Where ` function ` goes: after the visibility, a space, and `static` or nothing. */
  function FunctionSlot(m: Member): nat
    requires m.Method?
  {
    SignatureSlot(m) + |m.access| + |Keyword(m.isStatic, "static")| + 2
  }

  /** Where the name goes: after `static`, or after nothing, and ` function `. */
  function NameSlot(m: Member): nat
    requires m.Method?
  {
    SignatureSlot(m) + |m.access| + |Keyword(m.isStatic, "static")| + 12
  }


  /** `Method::getCode`. `ownerFcqn` is the FCQN of the builder `end()` returns, None when the
      method has none; a body that forwards needs it and fails with a TypeError without it. */
  function MethodCode(m: Member, ownerFcqn: Option<string>, varExport: Exporter): (r: Result<string>)
    requires m.Method?
    ensures r.Err? <==> !m.isAbstract && ownerFcqn.None?
    ensures r.Err? ==> r.error == TypeError
    ensures r.Ok? ==> HasAt(r.value, |Break12|, Block(m.comments))
    ensures r.Ok? ==> (HasAt(r.value, AbstractSlot(m), "abstract") <==> m.isAbstract)
    ensures r.Ok? ==> (EndsWith(r.value, ";" + Break8) <==> m.isAbstract)
    ensures r.Ok? ==> HasAt(r.value, SignatureSlot(m), SignatureRest(m, varExport))
    ensures r.Ok? && !m.isAbstract ==> EndsWith(r.value, ForwardingCall(m) + Break8)
    ensures r.Ok? && !m.isAbstract ==> EndsWith(r.value, Body(m, ownerFcqn.value) + Break8)
  {
    if !m.isAbstract && ownerFcqn.None? then Err(TypeError)
    else
      MethodLayout(m, OwnerText(ownerFcqn), varExport);
      DeclarationRest(Block(m.comments), m.isAbstract, SignatureRest(m, varExport), Body(m, OwnerText(ownerFcqn)),
                      SignatureSlot(m));
      DeclarationEnd(Block(m.comments), m.isAbstract, SignatureRest(m, varExport), Body(m, OwnerText(ownerFcqn)));
      Ok(Declaration(Block(m.comments), m.isAbstract, SignatureRest(m, varExport), Body(m, OwnerText(ownerFcqn))))
  }

  /** In a rendered method, `static` stands at its slot exactly when the method is static,
      ` function ` follows it, and the name follows ` function `. */
  lemma MethodCodeSignature(m: Member, ownerFcqn: Option<string>, varExport: Exporter)
    requires m.Method?
    ensures MethodCode(m, ownerFcqn, varExport).Ok? ==>
              (HasAt(MethodCode(m, ownerFcqn, varExport).value, StaticSlot(m), "static") <==> m.isStatic)
    ensures MethodCode(m, ownerFcqn, varExport).Ok? ==>
              HasAt(MethodCode(m, ownerFcqn, varExport).value, FunctionSlot(m), " function ")
    ensures MethodCode(m, ownerFcqn, varExport).Ok? ==>
              HasAt(MethodCode(m, ownerFcqn, varExport).value, NameSlot(m), m.name)
  {
    var r := MethodCode(m, ownerFcqn, varExport);
    if r.Ok? {
      SignatureWithin(m, varExport, r.value);
    }
  }

  /** The FCQN spliced into the closure lookup; only an abstract method, which has no lookup,
      goes without one. */
  function OwnerText(ownerFcqn: Option<string>): string {
    if ownerFcqn.Some? then ownerFcqn.value else ""
  }

  /** The template of `Method::getCode` with its pieces filled in. */
  function Declaration(block: string, isAbstract: bool, rest: string, body: string): string {
    Break12 + block + Break12 + Keyword(isAbstract, "abstract") + rest + Break12 + body + Break8
  }

  /** The layout of one method's declaration: comment block, `abstract` and ending. */
  lemma MethodLayout(m: Member, fcqn: string, varExport: Exporter)
    requires m.Method?
    ensures var code := Declaration(Block(m.comments), m.isAbstract, SignatureRest(m, varExport), Body(m, fcqn));
            && HasAt(code, |Break12|, Block(m.comments))
            && (HasAt(code, AbstractSlot(m), "abstract") <==> m.isAbstract)
            && (EndsWith(code, ";" + Break8) <==> m.isAbstract)
            && (!m.isAbstract ==> EndsWith(code, ForwardingCall(m) + Break8))
  {
    var rest := SignatureRest(m, varExport);
    var body := Body(m, fcqn);
    var code := Declaration(Block(m.comments), m.isAbstract, rest, body);
    DeclarationLayout(Block(m.comments), m.isAbstract, rest, body, AbstractSlot(m));
    if !m.isAbstract {
      DeclarationEnd(Block(m.comments), m.isAbstract, rest, body);
      EndsWithExtend(body, ForwardingCall(m), Break8);
      SuffixOfSuffix(code, body + Break8, ForwardingCall(m) + Break8);
    }
  }

  /** In any text holding a method's signature at its slot, `static` stands at its slot exactly
      for a static method, and ` function ` and the name stand at theirs. */
  lemma SignatureWithin(m: Member, varExport: Exporter, code: string)
    requires m.Method?
    requires HasAt(code, SignatureSlot(m), SignatureRest(m, varExport))
    ensures HasAt(code, StaticSlot(m), "static") <==> m.isStatic
    ensures HasAt(code, FunctionSlot(m), " function ")
    ensures HasAt(code, NameSlot(m), m.name)
  {
    var rest := SignatureRest(m, varExport);
    HasAtWithin(code, SignatureSlot(m), rest, |m.access| + 2, "static", StaticSlot(m));
    HasAtWithin(code, SignatureSlot(m), rest, |m.access| + |Keyword(m.isStatic, "static")| + 2, " function ",
                FunctionSlot(m));
    HasAtWithin(code, SignatureSlot(m), rest, |m.access| + |Keyword(m.isStatic, "static")| + 12, m.name, NameSlot(m));
  }

  /** The layout of a declaration, for any comment block, signature rest starting with a space,
      and body that is `;` exactly when the method is abstract and otherwise ends with `}`. */
  lemma DeclarationLayout(block: string, isAbstract: bool, rest: string, body: string, slot: nat)
    requires |rest| > 0 && rest[0] == ' '
    requires isAbstract ==> body == ";"
    requires !isAbstract ==> |body| > 0 && body[|body| - 1] == '}'
    requires slot == |Break12| + |block| + |Break12|
    ensures var code := Declaration(block, isAbstract, rest, body);
            && HasAt(code, |Break12|, block)
            && (HasAt(code, slot, "abstract") <==> isAbstract)
            && (EndsWith(code, ";" + Break8) <==> isAbstract)
  {
    var head := Break12 + block + Break12;
    var keyword := Keyword(isAbstract, "abstract");
    var sig := keyword + rest;
    var last := body + Break8;
    Regroup(head, keyword, rest);
    Regroup(head + sig + Break12, body, Break8);
    LayoutBlock(Break12, block, Break12 + sig + Break12 + last);
    LayoutKeyword(head, isAbstract, rest, Break12 + last);
    LayoutEnding(head + sig + Break12, body);
  }

  /** Where the signature rest sits in a declaration: `k` is its offset. */
  lemma DeclarationRest(block: string, isAbstract: bool, rest: string, body: string, k: nat)
    requires k == |Break12| + |block| + |Break12| + |Keyword(isAbstract, "abstract")|
    ensures HasAt(Declaration(block, isAbstract, rest, body), k, rest)
  {
    var front := Break12 + block + Break12 + Keyword(isAbstract, "abstract");
    HasAtEnd(front, rest);
    HasAtExtend(front + rest, Break12, k, rest);
    HasAtExtend(front + rest + Break12, body, k, rest);
    HasAtExtend(front + rest + Break12 + body, Break8, k, rest);
  }

  /** A declaration ends with its body and the closing break. */
  lemma DeclarationEnd(block: string, isAbstract: bool, rest: string, body: string)
    ensures EndsWith(Declaration(block, isAbstract, rest, body), body + Break8)
  {
    var front := Break12 + block + Break12 + Keyword(isAbstract, "abstract") + rest + Break12;
    Regroup(front, body, Break8);
    EndsWithSuffix(front, body + Break8);
  }

  lemma LayoutBlock(lead: string, block: string, after: string)
    ensures HasAt(lead + block + after, |lead|, block)
  {
    HasAtMiddle(lead, block, after);
  }

  lemma LayoutKeyword(head: string, isAbstract: bool, rest: string, after: string)
    requires |rest| > 0 && rest[0] == ' '
    ensures HasAt(head + (Keyword(isAbstract, "abstract") + rest) + after, |head|, "abstract") <==> isAbstract
  {
    var code := head + (Keyword(isAbstract, "abstract") + rest) + after;
    if isAbstract {
      assert code == head + "abstract" + (rest + after);
      HasAtMiddle(head, "abstract", rest + after);
    } else {
      assert code[|head|] == rest[0];
    }
  }

  lemma LayoutEnding(front: string, body: string)
    requires |body| > 0
    ensures EndsWith(front + body + Break8, ";" + Break8) <==> body[|body| - 1] == ';'
  {
    var code := front + body + Break8;
    assert code[|code| - |Break8| - 1] == body[|body| - 1];
    assert code[|code| - |Break8|..] == Break8;
    if body[|body| - 1] == ';' {
      assert code[|code| - |";" + Break8|..] == ";" + Break8;
    }
  }

  /** The forwarding call passes exactly the declared parameter names, in declaration order:
      the argument list is the parameter list with every type, `...`, `&` and default dropped. */
  lemma ForwardsParameterNamesInOrder(ps: seq<Parameter>, varExport: Exporter)
    ensures ForwardedArguments(ps)
            == ParametersCode(seq(|ps|, i requires 0 <= i < |ps| => Parameter(ps[i].name, false, false, None, None)), varExport)
  {
    var bare := seq(|ps|, i requires 0 <= i < |ps| => Parameter(ps[i].name, false, false, None, None));
    assert seq(|bare|, i requires 0 <= i < |bare| => ParameterCode(bare[i], varExport))
           == seq(|ps|, i requires 0 <= i < |ps| => "$" + ps[i].name);
  }

  /** The argument tail starts with `,` exactly when there is at least one parameter. */
  lemma CallTailEmptyIffNoParameters(ps: seq<Parameter>)
    ensures CallTail(ps) == "" <==> |ps| == 0
    ensures |ps| > 0 ==> CallTail(ps) == "," + ForwardedArguments(ps)
  {
    if |ps| > 0 {
      var args := seq(|ps|, i requires 0 <= i < |ps| => "$" + ps[i].name);
      assert ForwardedArguments(ps)[0] == '$' by {
        if |ps| == 1 {
          assert ForwardedArguments(ps) == args[0];
        } else {
          assert ForwardedArguments(ps) == args[0] + "," + Implode(",", args[1..]);
        }
      }
    }
  }

  /** Splitting the forwarded arguments on `,` gives back `$name` for every parameter in order,
      when no parameter name holds a comma. */
  lemma ForwardedArgumentsSplitBack(ps: seq<Parameter>)
    requires |ps| > 0
    requires forall i :: 0 <= i < |ps| ==> ',' !in ps[i].name
    ensures Explode(',', ForwardedArguments(ps)) == seq(|ps|, i requires 0 <= i < |ps| => "$" + ps[i].name)
  {
    var args := seq(|ps|, i requires 0 <= i < |ps| => "$" + ps[i].name);
    forall i | 0 <= i < |args|
      ensures ',' !in args[i]
    {
      assert args[i] == "$" + ps[i].name;
    }
    ExplodeImplode(',', args);
  }

  /** A truthy explicit return type is rendered as `: T`, whatever closure the method has. */
  lemma ExplicitReturnTypeOverridesClosure(m: Member, c: Option<Closure>, returnType: string)
    requires m.Method? && Truthy(returnType)
    ensures ReturnTypeCode(m.(closure := c, returnType := Some(returnType))) == ": " + returnType
  {
  }

  /** The closure's return type is rendered when no truthy one was set: a class other than
      `self` gets `\`, a nullable type gets `?`. */
  lemma ReflectedReturnTypeRendering(m: Member, t: TypeRef)
    requires m.Method? && !TruthyOpt(m.returnType)
    requires m.closure.Some? && m.closure.value.returnType == Some(t)
    ensures StartsWith(ReturnTypeCode(m), if t.nullable then ": ?" else ": ")
    ensures EndsWith(ReturnTypeCode(m), t.name)
    ensures |ReturnTypeCode(m)| == (if t.nullable then 3 else 2) + (if !t.builtin && t.name != "self" then 1 else 0) + |t.name|
    ensures !t.builtin && t.name != "self" ==> ReturnTypeCode(m) == (if t.nullable then ": ?" else ": ") + "\\" + t.name
    ensures t.builtin || t.name == "self" ==> ReturnTypeCode(m) == (if t.nullable then ": ?" else ": ") + t.name
  {
    var text := ReturnTypeCode(m);
    var qualified := if !t.builtin && t.name != "self" then "\\" + t.name else t.name;
    var prefix := if t.nullable then ": ?" else ": ";
    assert text == prefix + qualified;
    assert text[|text| - |t.name|..] == t.name;
  }

  /** Without a closure the parameter list is empty, and only an explicit return type appears. */
  lemma NoClosureMeansNoParametersNoReflection(m: Member, varExport: Exporter)
    requires m.Method? && m.closure.None?
    ensures ParametersCode(Parameters(m), varExport) == ""
    ensures ReturnTypeCode(m) == ExplicitReturnType(m)
    ensures TruthyOpt(m.returnType) || ReturnTypeCode(m) == ""
    ensures CallTail(Parameters(m)) == ""
  {
  }

  /** `setReturnType('void')` still emits `return`: only the closure's own `void` drops it. */
  lemma ExplicitVoidStillReturns(m: Member)
    requires m.Method?
    ensures EmitsReturn(SetReturnType(m, Some("void")))
  {
  }

  lemma ReflectedVoidOmitsReturn(m: Member)
    requires m.Method? && !TruthyOpt(m.returnType)
    requires m.closure.Some? && m.closure.value.returnType.Some?
    requires m.closure.value.returnType.value.name == "void"
    ensures !EmitsReturn(m)
  {
  }

  /** An abstract method needs no builder: its code never fails, and it has no body to forward. */
  lemma AbstractMethodNeedsNoBuilder(m: Member, varExport: Exporter)
    requires m.Method? && m.isAbstract
    ensures MethodCode(m, None, varExport).Ok?
    ensures Body(m, "") == ";"
  {
  }

  /** `getReturnType` returns what `setReturnType` stored, and the last call wins. */
  lemma ReturnTypeRoundTrip(m: Member, first: Option<string>, second: Option<string>)
    requires m.Method?
    ensures GetReturnType(SetReturnType(m, first)) == first
    ensures SetReturnType(SetReturnType(m, first), second) == SetReturnType(m, second)
  {
  }
}

=== FILE: php.dfy ===
/** The PHP built-ins the builder relies on, over byte strings: truthiness, `implode`,
    `explode`, and the scalar values that `var_export` prints. */
module Php {

  import opened Wrappers

  /** A value a property, a constant or a parameter default can hold. Floats and arrays are not
      part of this model. */
  datatype Value = Null | Bool(boolean: bool) | Int(integer: int) | Str(text: string)

  /** `var_export($v, true)`, left uninterpreted: every emitter takes it as a parameter. */
  type Exporter = Value -> string

  /** PHP truthiness of a string: only "" and "0" are falsy. */
  predicate Truthy(s: string) {
    s != "" && s != "0"
  }

  /** PHP truthiness of a nullable string: null is falsy too. */
  predicate TruthyOpt(s: Option<string>) {
    s.Some? && Truthy(s.value)
  }

  /** A nullable string interpolated into a double-quoted string: null becomes "". */
  function Interpolate(s: Option<string>): string {
    if s.Some? then s.value else ""
  }

  /** `$flag ? $word : ''` */
  function Keyword(flag: bool, word: string): string {
    if flag then word else ""
  }

  // The layout of the generated code: a line break and then 8, 12, 16 or 20 spaces.
  const Break8 := "\n        "
  const Break12 := "\n            "
  const Break16 := "\n                "
  const Break20 := "\n                    "

  predicate StartsWith(s: string, prefix: string) {
    |prefix| <= |s| && s[..|prefix|] == prefix
  }

  predicate EndsWith(s: string, suffix: string) {
    |suffix| <= |s| && s[|s| - |suffix|..] == suffix
  }

  /** `w` occurs in `s` starting at offset `k` */
  predicate HasAt(s: string, k: nat, w: string) {
    k + |w| <= |s| && s[k..k + |w|] == w
  }

  lemma HasAtMiddle(a: string, w: string, b: string)
    ensures HasAt(a + w + b, |a|, w)
  {
    assert (a + w + b)[|a|..|a| + |w|] == w;
  }

  lemma StartsWithPrefix(w: string, b: string)
    ensures StartsWith(w + b, w)
  {
    assert (w + b)[..|w|] == w;
  }

  lemma EndsWithSuffix(a: string, w: string)
    ensures EndsWith(a + w, w)
  {
    assert (a + w)[|a|..] == w;
  }

  /** Concatenation regrouped to the left. */
  lemma Regroup(a: string, b: string, c: string)
    ensures a + (b + c) == a + b + c
  {
  }

  /** `h + w + t` is `h + t` with `w` inserted at offset `|h|`. */
  lemma InsertBetween(h: string, w: string, t: string)
    ensures h + (w + t) == (h + t)[..|h|] + w + (h + t)[|h|..]
  {
    assert (h + t)[..|h|] == h;
    assert (h + t)[|h|..] == t;
  }

  /** A prefix of a prefix is a prefix. */
  lemma PrefixOfPrefix(s: string, a: string, w: string)
    requires StartsWith(s, a) && StartsWith(a, w)
    ensures StartsWith(s, w)
  {
    assert s[..|w|] == s[..|a|][..|w|];
  }

  /** A suffix of a suffix is a suffix. */
  lemma SuffixOfSuffix(s: string, a: string, w: string)
    requires EndsWith(s, a) && EndsWith(a, w)
    ensures EndsWith(s, w)
  {
    assert s[|s| - |w|..] == s[|s| - |a|..][|a| - |w|..];
  }

  /** A string framed by `pre` and `post` starts with one and ends with the other. */
  lemma Framed(pre: string, mid: string, post: string)
    ensures StartsWith(pre + mid + post, pre) && EndsWith(pre + mid + post, post)
  {
    Regroup(pre, mid, post);
    StartsWithPrefix(pre, mid + post);
    EndsWithSuffix(pre + mid, post);
  }

  /** The last byte of a concatenation is the last byte of its non-empty right part. */
  lemma LastOfAppend(a: string, b: string)
    requires |b| > 0
    ensures |a + b| > 0 && (a + b)[|a + b| - 1] == b[|b| - 1]
  {
  }

  /** Dropping a suffix's length from the end gives back what preceded it. */
  lemma DropSuffix(a: string, c: string)
    ensures (a + c)[..|a + c| - |c|] == a
  {
    assert |a + c| - |c| == |a|;
  }

  /** `w` occurs right after `a` in `a + w`. */
  lemma HasAtEnd(a: string, w: string)
    ensures HasAt(a + w, |a|, w)
  {
    assert (a + w)[|a|..|a| + |w|] == w;
  }

  /** An occurrence survives appending. */
  lemma HasAtExtend(s: string, t: string, k: nat, w: string)
    requires HasAt(s, k, w)
    ensures HasAt(s + t, k, w)
  {
    assert (s + t)[k..k + |w|] == s[k..k + |w|];
  }

  /** Inside an occurrence of `t` at `k`, the text at `k + j` is the text of `t` at `j`. */
  lemma HasAtWithin(s: string, k: nat, t: string, j: nat, w: string, at: nat)
    requires HasAt(s, k, t) && j + |w| <= |t| && at == k + j
    ensures HasAt(s, at, w) <==> HasAt(t, j, w)
  {
    assert s[at..at + |w|] == t[j..j + |w|];
  }

  /** A suffix stays a suffix when the same text is appended to both. */
  lemma EndsWithExtend(b: string, c: string, w: string)
    requires EndsWith(b, c)
    ensures EndsWith(b + w, c + w)
  {
    assert (b + w)[|b + w| - |c + w|..] == b[|b| - |c|..] + w;
  }

  /** `implode($glue, $xs)` */
  function Implode(glue: string, xs: seq<string>): string
    decreases |xs|
  {
    if |xs| == 0 then ""
    else if |xs| == 1 then xs[0]
    else xs[0] + glue + Implode(glue, xs[1..])
  }

  /** A non-empty implosion starts with its first piece. */
  lemma ImplodeStartsWithFirst(glue: string, xs: seq<string>)
    requires |xs| > 0
    ensures StartsWith(Implode(glue, xs), xs[0])
  {
    if |xs| > 1 {
      Regroup(xs[0], glue, Implode(glue, xs[1..]));
      StartsWithPrefix(xs[0], glue + Implode(glue, xs[1..]));
    } else {
      StartsWithPrefix(xs[0], "");
    }
  }

  /** `explode($delimiter, $s)` for a one-byte delimiter. */
  function Explode(delimiter: char, s: string): (pieces: seq<string>)
    ensures |pieces| >= 1
    ensures forall i :: 0 <= i < |pieces| ==> delimiter !in pieces[i]
    decreases |s|
  {
    if |s| == 0 then [""]
    else
      var rest := Explode(delimiter, s[1..]);
      if s[0] == delimiter then [""] + rest
      else [[s[0]] + rest[0]] + rest[1..]
  }

  /** `explode` returns one piece more than there are delimiters in the string. */
  lemma {:induction false} ExplodeCount(delimiter: char, s: string)
    ensures |Explode(delimiter, s)| == multiset(s)[delimiter] + 1
    decreases |s|
  {
    if |s| > 0 {
      ExplodeCount(delimiter, s[1..]);
      assert s == [s[0]] + s[1..];
      assert multiset(s) == multiset([s[0]]) + multiset(s[1..]);
    }
  }

  lemma {:induction false} ImplodeSnoc(glue: string, xs: seq<string>, x: string)
    requires |xs| > 0
    ensures Implode(glue, xs + [x]) == Implode(glue, xs) + glue + x
    decreases |xs|
  {
    if |xs| == 1 {
      assert xs + [x] == [xs[0], x];
    } else {
      assert (xs + [x])[1..] == xs[1..] + [x];
      ImplodeSnoc(glue, xs[1..], x);
    }
  }

  /** Joining the pieces of `explode` with the delimiter gives back the string. */
  lemma {:induction false} ImplodeExplode(delimiter: char, s: string)
    ensures Implode([delimiter], Explode(delimiter, s)) == s
    decreases |s|
  {
    if |s| > 0 {
      var rest := Explode(delimiter, s[1..]);
      ImplodeExplode(delimiter, s[1..]);
      if s[0] == delimiter {
        assert Explode(delimiter, s) == [""] + rest;
        if |rest| == 1 {
          assert Implode([delimiter], [""] + rest) == [delimiter] + rest[0];
        } else {
          assert ([""] + rest)[1..] == rest;
        }
        assert s == [s[0]] + s[1..];
      } else {
        var pieces := [[s[0]] + rest[0]] + rest[1..];
        assert Explode(delimiter, s) == pieces;
        if |rest| == 1 {
          assert pieces == [[s[0]] + rest[0]];
        } else {
          assert pieces[1..] == rest[1..];
          assert Implode([delimiter], rest) == rest[0] + [delimiter] + Implode([delimiter], rest[1..]);
        }
        assert s == [s[0]] + s[1..];
      }
    }
  }

  /** A string without the delimiter explodes into itself alone. */
  lemma {:induction false} ExplodeWithoutDelimiter(delimiter: char, s: string)
    requires delimiter !in s
    ensures Explode(delimiter, s) == [s]
    decreases |s|
  {
    if |s| > 0 {
      ExplodeWithoutDelimiter(delimiter, s[1..]);
      assert s == [s[0]] + s[1..];
    }
  }

  /** What one more byte in front does to the pieces: a delimiter opens a new first piece,
      any other byte joins the first piece. */
  function PushFront(delimiter: char, c: char, pieces: seq<string>): seq<string>
    requires |pieces| >= 1
  {
    if c == delimiter then [""] + pieces else [[c] + pieces[0]] + pieces[1..]
  }

  lemma ExplodeCons(delimiter: char, c: char, s: string)
    ensures Explode(delimiter, [c] + s) == PushFront(delimiter, c, Explode(delimiter, s))
  {
    assert ([c] + s)[1..] == s;
  }

  /** Pushing a byte onto a list of pieces touches only its first piece. */
  lemma PushFrontAppend(delimiter: char, c: char, left: seq<string>, right: seq<string>)
    requires |left| >= 1
    ensures PushFront(delimiter, c, left + right) == PushFront(delimiter, c, left) + right
  {
    if c != delimiter {
      assert (left + right)[1..] == left[1..] + right;
    }
  }

  /** Exploding splits exactly at every delimiter: what lies left of one delimiter and what
      lies right of it explode independently. */
  lemma {:induction false} ExplodeAround(delimiter: char, a: string, b: string)
    ensures Explode(delimiter, a + [delimiter] + b) == Explode(delimiter, a) + Explode(delimiter, b)
    decreases |a|
  {
    if |a| == 0 {
      assert a + [delimiter] + b == [delimiter] + b;
      ExplodeCons(delimiter, delimiter, b);
    } else {
      var c := a[0];
      var t := a[1..];
      assert a == [c] + t;
      assert a + [delimiter] + b == [c] + (t + [delimiter] + b);
      ExplodeAround(delimiter, t, b);
      ExplodeCons(delimiter, c, t + [delimiter] + b);
      ExplodeCons(delimiter, c, t);
      PushFrontAppend(delimiter, c, Explode(delimiter, t), Explode(delimiter, b));
    }
  }

  /** `explode` undoes `implode` when no piece contains the delimiter. */
  lemma {:induction false} ExplodeImplode(delimiter: char, xs: seq<string>)
    requires |xs| > 0
    requires forall i :: 0 <= i < |xs| ==> delimiter !in xs[i]
    ensures Explode(delimiter, Implode([delimiter], xs)) == xs
    decreases |xs|
  {
    if |xs| == 1 {
      ExplodeWithoutDelimiter(delimiter, xs[0]);
    } else {
      ExplodeImplode(delimiter, xs[1..]);
      ExplodeAround(delimiter, xs[0], Implode([delimiter], xs[1..]));
      ExplodeWithoutDelimiter(delimiter, xs[0]);
      assert xs == [xs[0]] + xs[1..];
    }
  }
}

=== FILE: properties.dfy ===
/** `Property::getCode`: a property declaration with its comment block, visibility, optional
    `static`, `$name` and an initializer that is always present. */
module Properties {

  import opened Wrappers
  import opened Php
  import opened CommentTrait
  import opened ClassMember
  import opened MemberTraits

  /** Where the `static` keyword goes: after the comment block, a space, the visibility and a
      space. */
  function StaticSlot(p: Member): nat
    requires p.Property?
  {
    |Block(p.comments)| + 1 + |p.access| + 1
  }

  /** ` = <export>;`, the initializer every declaration ends with. */
  function Initializer(exported: string): string {
    " = " + exported + ";"
  }

  /** The declaration after the optional keyword: `$name`, a space, and the initializer. */
  function Tail(name: string, exported: string): string {
    " $" + name + " " + Initializer(exported)
  }

  /** The template with its pieces filled in: block, space, access, space, keyword, tail. */
  function Declaration(block: string, access: string, keyword: string, tail: string): string {
    (block + " ") + (access + " ") + (keyword + tail)
  }

  /** The block opens the declaration and the access follows it after one space. */
  lemma DeclarationStarts(block: string, access: string, keyword: string, tail: string)
    ensures StartsWith(Declaration(block, access, keyword, tail), block)
    ensures HasAt(Declaration(block, access, keyword, tail), |block| + 1, access + " ")
  {
    var a := block + " ";
    var w := access + " ";
    Regroup(a, w, keyword + tail);
    HasAtMiddle(a, w, keyword + tail);
    StartsWithPrefix(a, w + (keyword + tail));
    StartsWithPrefix(block, " ");
    PrefixOfPrefix(Declaration(block, access, keyword, tail), a, block);
  }

  /** `static` stands at the slot exactly when the flag renders it. */
  lemma DeclarationKeyword(block: string, access: string, isStatic: bool, name: string, exported: string, slot: nat)
    requires slot == |block| + |access| + 2
    ensures HasAt(Declaration(block, access, Keyword(isStatic, "static"), Tail(name, exported)), slot, "static")
            <==> isStatic
  {
    var keyword := Keyword(isStatic, "static");
    var tail := Tail(name, exported);
    var h := (block + " ") + (access + " ");
    assert tail[0] == ' ';
    assert |h| == slot;
    if isStatic {
      Regroup(h, keyword, tail);
      HasAtMiddle(h, keyword, tail);
    } else {
      assert Declaration(block, access, keyword, tail) == h + tail;
      assert (h + tail)[|h|] == ' ';
    }
  }

  /** The tail closes the declaration. */
  lemma DeclarationEnds(block: string, access: string, keyword: string, tail: string)
    ensures EndsWith(Declaration(block, access, keyword, tail), tail)
  {
    var h := (block + " ") + (access + " ");
    Regroup(h, keyword, tail);
    EndsWithSuffix(h + keyword, tail);
  }

  function PropertyCode(p: Member, varExport: Exporter): (code: string)
    requires p.Property?
    ensures StartsWith(code, Block(p.comments))
    ensures HasAt(code, |Block(p.comments)| + 1, p.access + " ")
    ensures HasAt(code, StaticSlot(p), "static") <==> p.isStatic
    ensures EndsWith(code, Tail(p.name, varExport(p.value)))
    ensures |code| == StaticSlot(p) + |Keyword(p.isStatic, "static")| + |Tail(p.name, varExport(p.value))|
  {
    var block := Block(p.comments);
    var keyword := Keyword(p.isStatic, "static");
    var tail := Tail(p.name, varExport(p.value));
    DeclarationStarts(block, p.access, keyword, tail);
    DeclarationKeyword(block, p.access, p.isStatic, p.name, varExport(p.value), StaticSlot(p));
    DeclarationEnds(block, p.access, keyword, tail);
    Declaration(block, p.access, keyword, tail)
  }

  /** Setting the static flag inserts exactly the keyword `static` and changes nothing else in
      the declaration. */
  lemma StaticInsertsOnlyTheKeyword(p: Member, varExport: Exporter)
    requires p.Property?
    ensures var without := PropertyCode(SetStatic(p, false), varExport);
            var with := PropertyCode(SetStatic(p, true), varExport);
            exists k :: 0 <= k <= |without| && with == without[..k] + "static" + without[k..]
  {
    var q := SetStatic(p, false);
    var r := SetStatic(p, true);
    assert q.comments == p.comments && q.access == p.access && q.name == p.name && q.value == p.value;
    assert r.comments == p.comments && r.access == p.access && r.name == p.name && r.value == p.value;
    var block := Block(p.comments);
    var tail := Tail(p.name, varExport(p.value));
    var h := (block + " ") + (p.access + " ");
    assert PropertyCode(q, varExport) == h + ("" + tail);
    assert PropertyCode(r, varExport) == h + ("static" + tail);
    assert "" + tail == tail;
    InsertBetween(h, "static", tail);
    assert |h| <= |h + tail|;
  }

  /** A property without `setDefaultValue` still gets an initializer: the export of null. */
  lemma UnsetDefaultExportsNull(name: string, varExport: Exporter)
    ensures EndsWith(PropertyCode(NewProperty(name), varExport), " = " + varExport(Null) + ";")
  {
    var init := Initializer(varExport(Null));
    EndsWithSuffix(" $" + name + " ", init);
    SuffixOfSuffix(PropertyCode(NewProperty(name), varExport), Tail(name, varExport(Null)), init);
  }
}

=== FILE: seqs.dfy ===
/** Searching and filtering sequences: the two list walks the builder performs over its
    members, interfaces and traits. */
module Seqs {

  import opened Wrappers

  /** The position of the first element satisfying `p`, or None when there is none. */
  function FirstIndex<T>(xs: seq<T>, p: T -> bool): (r: Option<nat>)
    ensures r.Some? ==> r.value < |xs| && p(xs[r.value])
    ensures r.Some? ==> forall j :: 0 <= j < r.value ==> !p(xs[j])
    ensures r.None? <==> forall j :: 0 <= j < |xs| ==> !p(xs[j])
    decreases |xs|
  {
    if |xs| == 0 then None
    else if p(xs[0]) then Some(0)
    else
      match FirstIndex(xs[1..], p)
      case None => None
      case Some(k) => Some(k + 1)
  }

  /** The elements satisfying `keep`, in their original order. */
  function Filter<T(!new)>(xs: seq<T>, keep: T -> bool): (r: seq<T>)
    ensures |r| <= |xs|
    ensures forall i :: 0 <= i < |r| ==> keep(r[i])
    ensures forall x :: keep(x) ==> multiset(r)[x] == multiset(xs)[x]
    decreases |xs|
  {
    if |xs| == 0 then []
    else
      assert xs == [xs[0]] + xs[1..];
      if keep(xs[0]) then [xs[0]] + Filter(xs[1..], keep) else Filter(xs[1..], keep)
  }

  /** Filtering a concatenation filters each part: the kept elements keep their relative order. */
  lemma {:induction false} FilterAppend<T(!new)>(xs: seq<T>, ys: seq<T>, keep: T -> bool)
    ensures Filter(xs + ys, keep) == Filter(xs, keep) + Filter(ys, keep)
    decreases |xs|
  {
    if |xs| > 0 {
      assert (xs + ys)[0] == xs[0];
      assert (xs + ys)[1..] == xs[1..] + ys;
      FilterAppend(xs[1..], ys, keep);
    } else {
      assert xs + ys == ys;
    }
  }

  /** Filtering a sequence whose elements all pass changes nothing. */
  lemma {:induction false} FilterKeepsAll<T(!new)>(xs: seq<T>, keep: T -> bool)
    requires forall i :: 0 <= i < |xs| ==> keep(xs[i])
    ensures Filter(xs, keep) == xs
    decreases |xs|
  {
    if |xs| > 0 {
      FilterKeepsAll(xs[1..], keep);
    }
  }
}

=== FILE: trait_builder.dfy ===
/** `TraitBuilder`: a `ClassBuilder` whose constructor switches the entity type to `trait`. */
module TraitBuilder {

  import opened Wrappers
  import opened Php
  import opened ClassMember
  import ClassBuilder
  import ClassEmitter

  /** `new TraitBuilder($name)`: the parent constructor, whose exception escapes, then
      `setEntityType('trait')`, which cannot raise. */
  function New(id: BuilderId, name: Option<string>, unique: string): (r: Result<ClassBuilder.Builder>)
    ensures r.Ok? <==> ClassBuilder.New(id, name, unique).Ok?
    ensures r.Err? ==> r == ClassBuilder.New(id, name, unique)
    ensures r.Ok? ==> r.value.entityType == ClassBuilder.EntityTrait
    ensures r.Ok? ==> r.value.(entityType := ClassBuilder.EntityClass) == ClassBuilder.New(id, name, unique).value
  {
    match ClassBuilder.New(id, name, unique)
    case Err(e) => Err(e)
    case Ok(b) =>
      var e := ClassBuilder.SetEntityType(b, ClassBuilder.EntityTrait);
      assert !e.Raised();
      Ok(e.state)
  }

  /** A fresh trait builder is well formed, and its header line declares a trait with no
      modifiers, parent or interfaces. */
  lemma TraitHeaderDeclaresTrait(id: BuilderId, name: Option<string>, unique: string)
    requires New(id, name, unique).Ok?
    ensures ClassBuilder.WellFormed(New(id, name, unique).value)
    ensures var t := New(id, name, unique).value;
            ClassEmitter.HeaderLine(t) == "  trait " + t.name + "  "
  {
    var t := New(id, name, unique).value;
    ClassEmitter.PlainHeader(t);
    assert "  " + "trait" + " " == "  trait ";
  }
}

=== FILE: trait_uses.dfy ===
/** `TraitMember`: a `use` clause inside the class body, with its optional block of conflict
    resolution definitions. */
module TraitUses {

  import opened Wrappers
  import opened Php
  import opened ClassMember

  /** `setTraits` */
  function SetTraits(m: Member, traits: Traits): (r: Member)
    requires m.TraitUse?
    ensures r.TraitUse? && r.traits == traits
    ensures r.(traits := m.traits) == m
  {
    m.(traits := traits)
  }

  /** `setDefinitions` */
  function SetDefinitions(m: Member, definitions: seq<string>): (r: Member)
    requires m.TraitUse?
    ensures r.TraitUse? && r.definitions == definitions
    ensures r.(definitions := m.definitions) == m
  {
    m.(definitions := definitions)
  }

  /** The trait names as written: one name verbatim, a list joined with `,`, null as "".
      No `\` is put in front of them. */
  function TraitsText(traits: Traits): (r: string)
    ensures traits.NoTraits? ==> r == ""
    ensures traits.OneTrait? ==> r == traits.traitName
    ensures traits.TraitList? && |traits.traitNames| > 0
            && (forall i :: 0 <= i < |traits.traitNames| ==> ',' !in traits.traitNames[i])
            ==> Explode(',', r) == traits.traitNames
  {
    match traits
    case NoTraits => ""
    case OneTrait(t) => t
    case TraitList(ts) =>
      TraitListSplitsBack(ts);
      Implode(",", ts)
  }

  /** A list of trait names comes back, unprefixed and in order, when the clause is split on
      `,` — unlike interfaces, which each get a leading `\`. */
  lemma TraitListSplitsBack(ts: seq<string>)
    ensures |ts| > 0 && (forall i :: 0 <= i < |ts| ==> ',' !in ts[i]) ==> Explode(',', Implode(",", ts)) == ts
  {
    if |ts| > 0 && forall i :: 0 <= i < |ts| ==> ',' !in ts[i] {
      ExplodeImplode(',', ts);
    }
  }

  /** Each definition followed by `;`, in order. */
  function DefinitionItems(definitions: seq<string>): string
    decreases |definitions|
  {
    if |definitions| == 0 then "" else definitions[0] + ";" + DefinitionItems(definitions[1..])
  }

  /** `;` without definitions, `{d1;d2;...}` with them. */
  function DefinitionsText(definitions: seq<string>): (r: string)
    ensures r == ";" <==> |definitions| == 0
    ensures |definitions| > 0 ==> StartsWith(r, "{") && EndsWith(r, "}")
  {
    if |definitions| == 0 then ";"
    else
      var r := "{" + DefinitionItems(definitions) + "}";
      StartsWithPrefix("{", DefinitionItems(definitions) + "}");
      EndsWithSuffix("{" + DefinitionItems(definitions), "}");
      r
  }

  /** `TraitMember::getCode` */
  function TraitUseCode(m: Member): (code: string)
    requires m.TraitUse?
    ensures HasAt(code, |Break12|, "use " + TraitsText(m.traits) + " ")
    ensures EndsWith(code, DefinitionsText(m.definitions) + Break8)
    ensures |code| == |Break12| + |"use " + TraitsText(m.traits) + " "| + |DefinitionsText(m.definitions)| + |Break8|
  {
    var clause := "use " + TraitsText(m.traits) + " ";
    var code := Break12 + clause + (DefinitionsText(m.definitions) + Break8);
    HasAtMiddle(Break12, clause, DefinitionsText(m.definitions) + Break8);
    EndsWithSuffix(Break12 + clause, DefinitionsText(m.definitions) + Break8);
    code
  }

  /** One more definition appends exactly `d;` to the items. */
  lemma {:induction false} DefinitionItemsSnoc(definitions: seq<string>, d: string)
    ensures DefinitionItems(definitions + [d]) == DefinitionItems(definitions) + (d + ";")
    decreases |definitions|
  {
    if |definitions| == 0 {
      assert definitions + [d] == [d];
      assert DefinitionItems([d]) == d + ";" + DefinitionItems([]);
    } else {
      var rest := definitions[1..];
      assert (definitions + [d])[0] == definitions[0];
      assert (definitions + [d])[1..] == rest + [d];
      DefinitionItemsSnoc(rest, d);
      Regroup(definitions[0] + ";", DefinitionItems(rest), d + ";");
    }
  }

  /** One more definition adds exactly `d;` in front of the closing brace. */
  lemma AddingDefinitionExtendsBlock(definitions: seq<string>, d: string)
    requires |definitions| > 0
    ensures DefinitionsText(definitions + [d]) == "{" + DefinitionItems(definitions) + (d + ";") + "}"
  {
    BlockOfNonEmpty(definitions + [d]);
    DefinitionItemsSnoc(definitions, d);
    Regroup("{", DefinitionItems(definitions), d + ";");
  }

  /** With definitions, the text is the braced items. */
  lemma BlockOfNonEmpty(definitions: seq<string>)
    requires |definitions| > 0
    ensures DefinitionsText(definitions) == "{" + DefinitionItems(definitions) + "}"
  {
  }

  /** A single trait name is emitted verbatim, exactly as a one-element list would be. */
  lemma OneTraitIsVerbatim(t: string)
    ensures TraitsText(OneTrait(t)) == t == TraitsText(TraitList([t]))
  {
  }

  /** A fresh trait use has no definitions, so its clause ends with `;`. */
  lemma NoDefinitionsByDefault(name: string)
    ensures NewTraitUse(name).definitions == []
    ensures EndsWith(TraitUseCode(NewTraitUse(name)), ";" + Break8)
  {
  }
}

=== FILE: wrappers.dfy ===
/** Failure-carrying datatypes shared by every module of the model: an optional value, the
    exceptions the builder raises, a result that is either a value or an exception, and the
    effect of a setter that may raise. */
module Wrappers {

  datatype Option<+T> = None | Some(value: T)

  /** The exceptions of the builder. Each carries the string it rejects; the message text the
      exception classes format is not modelled. */
  datatype Error =
    | InvalidClassName(subject: string)
    | InvalidNamespace(subject: string)
    | InvalidAccess(subject: string)
    | InvalidEntityType(subject: string)
    | UnexistentClass(subject: string)
    | UnexistentInterface(subject: string)
    | UnexistentTrait(subject: string)
      /** PHP's TypeError: null reached a place that demands a typed value */
    | TypeError

  /** A value, or the exception raised instead of producing it. */
  datatype Result<+T> = Ok(value: T) | Err(error: Error)

  /** The state of an object after a call on it, and the exception the call raised, if any.
      Work done before the exception was raised stays done, as it does in PHP. */
  datatype Effect<+T> = Effect(state: T, raised: Option<Error>) {
    predicate Raised() {
      raised.Some?
    }
  }
}
